=== FILE: README.md ===
# Census-tract geocoding and participant de-identification, modelled in Dafny

This project models the core of the seattleflu `geocoding` tool. The tool reads
participant records, one JSON object per line. It takes out the address fields
named by an institution's address map and standardizes them into a
role-keyed address (`street`, `street2`, `secondary`, `city`, `state`,
`zipcode`). It geocodes that address through two SmartyStreets services:

- the structured US Street lookup first;
- the free-text US Extract lookup as a fallback.

Responses are cached in a time-to-live cache keyed by the JSON text of the
standardized address. The resulting latitude and longitude are resolved to a
census-tract GEOID by a first-match scan of boundary polygons. The output
record has every identifying address field removed and a `census_tract` key
added. Next to it, `pii_deidentifier` standardizes a record's personal
identifiers (name, birth date, gender, postal code) into the text that is
digested into a participant identifier.

The newer revision (`src/deidentify/address_to_census_tract.py`) is the main
model. The older revision (`src/address_to_census_tract.py`) is modelled as a
variant, next to it, so that the two can be compared.

Modules, in dependency order:

| module | file | what it holds |
|---|---|---|
| `Wrappers` | `wrappers.dfy` | `Option` and `Result` with `:-` propagation |
| `Errors` | `errors.dfy` | the exceptions the pipeline raises, as one datatype |
| `Dicts` | `dicts.dfy` | Python dicts as entry sequences in insertion order |
| `Records` | `records.dfy` | JSON scalar values and Python's `str()` on them |
| `Text` | `text.dfy` | `str.upper`, `str.strip`, `str.join` (ASCII) and the value normalization |
| `JsonKey` | `json_key.dfy` | `json.dumps` of an address, sorted and unsorted; a reader proving it loses nothing |
| `ResultCache` | `result_cache.dfy` | the TTL cache with an explicit clock |
| `Geocoder` | `geocoder.dfy` | street lookup, extract fallback, their order, with the services as parameters |
| `Boundary` | `boundary.dfy` | point-in-polygon tract resolution with containment as a parameter |
| `Address` | `address.dfy` | address extraction and standardization (newer revision) |
| `Pipeline` | `pipeline.dfy` | `process_json_record` and the `process_json` batch loop (newer revision) |
| `Scenarios` | `scenarios.dfy` | the institutional address maps of `config.py` and what they lead to |
| `Legacy` | `legacy.dfy` | the older revision's standardize, lookup, extract, cache and loop body |
| `Pii` | `pii.dfy` | `standardize_pii` and the text `generate_hash` digests |

Modelling choices:

- A Python dict is a sequence of `(key, value)` pairs in insertion order, with
  `Dicts.DistinctKeys` as its invariant. Insertion order matters in three
  places: the extract text, the older revision's cache key and the order in
  which the address map is walked.
- Every exception the code can raise is a `Failure` of an `Errors.Error`
  variant, so each error path is part of a contract.
- The two SmartyStreets services are function parameters (`Geocoder.Services`).
  Every operation that may call them also returns the list of calls it made,
  so "no service is called" can be stated.
- The cache carries an explicit clock `now`. An entry written at time `t` is
  served while `now < t + ttl`, which is the rule of `cachetools.TTLCache`.
- Polygon shapes are an opaque type, and `shape.contains(point)` is a parameter.

Behaviour of the code worth noting (the model follows the code):

- `process_json` of the newer revision has no per-record error handling. The
  first record that raises ends the batch before `save_cache`, so the cache is
  not saved (`Pipeline.ProcessJson`).
- The newer `standardize_address` keeps exactly the named roles of the map,
  whatever they are, in map order; the set of roles comes from the map.
- The newer `lookup_address` returns `{}` when the street service finds
  nothing, and the newer `save_to_cache` stores whatever response it is given,
  so `{}` is cached. The older loop writes the cache only under its
  `if not response: ... else:` guard (`src/address_to_census_tract.py`, lines
  124-130), so it never caches a falsy response, `{}` or None alike.
- The older `standardize_address` can raise KeyError and AttributeError, not
  only its own translation error.
- The subset check of `standardize_pii` has no effect: its `raise` is
  commented out.

The older `latlng_to_polygon` (`src/address_to_census_tract.py`, lines
371-390) has the same logic as the newer one and is modelled by
`Boundary.LatLngToPolygon`. The older `us_street_lookup` has no `try`, so a
missing role raises a plain KeyError; `Legacy.LegacyLookupAddress` models
that.

## Model

| member | source | states |
|---|---|---|
| Dicts.Get | src/deidentify/address_to_census_tract.py:255 | `d[k]` is absent exactly when `k` is not a key; otherwise it is the value paired with `k`, the only one when keys are distinct |
| Dicts.Put | src/deidentify/address_to_census_tract.py:485 | assignment makes `k` map to `v`, leaves every other key's value alone, appends a new key at the end and keeps keys distinct |
| Dicts.Where | src/deidentify/address_to_census_tract.py:240 | the filtered dict holds exactly the entries whose key passes the filter, and keeps keys distinct |
| Records.NatToString | src/deidentify/address_to_census_tract.py:480 | the decimal text of a number is non-empty, made only of digits, reads back as the number, and starts with 0 only for zero itself |
| Text.Upper | src/deidentify/address_to_census_tract.py:480 | `upper()` keeps the length and maps every ASCII lower-case letter to its capital, all else unchanged |
| Text.StripStart | src/deidentify/address_to_census_tract.py:480 | the start of `strip()` is the first non-space position: everything skipped is space |
| Text.StripEnd | src/deidentify/address_to_census_tract.py:480 | the end of `strip()` follows the last non-space character: everything cut is space |
| Text.Strip | src/deidentify/address_to_census_tract.py:480 | `strip()` gives the middle of the text, only spaces are removed before and after it, and it neither starts nor ends with a space |
| Text.Normalize | src/deidentify/address_to_census_tract.py:480 | a normalized value has no lower-case letter and no space at either end |
| Text.NormalizeFixes | src/deidentify/address_to_census_tract.py:480 | a value with no lower-case letter and no space at either end is its own normalization |
| Text.NormalizeIdempotent | src/deidentify/address_to_census_tract.py:480 | normalizing twice is the same as normalizing once |
| Text.NormalizeIgnoresCase | src/deidentify/address_to_census_tract.py:480 | two values of the same length whose characters pairwise are equal or are the two cases of one ASCII letter normalize to the same text |
| Text.StripIgnoresSurroundingSpace | src/deidentify/address_to_census_tract.py:480 | `strip()` of a text with any spaces added before and after it is the `strip()` of the text |
| Text.NormalizeIgnoresSurroundingSpace | src/deidentify/address_to_census_tract.py:480 | a value with any spaces added before and after it normalizes to the same text as the value |
| Text.NormalizeIgnoresCaseAndSpace | src/deidentify/address_to_census_tract.py:480 | a value that differs from another only in ASCII letter case, character by character, and in surrounding spaces normalizes to the same text |
| Text.JoinContainsParts | src/deidentify/address_to_census_tract.py:510 | every part occurs in the joined text at its place: after the joined earlier parts and a separator, before a separator and the joined later parts |
| Text.JoinEmptyIff | src/deidentify/address_to_census_tract.py:510 | with a non-empty separator the joined text is empty if and only if there are no parts or one empty part |
| JsonKey.LessTransitive | src/deidentify/address_to_census_tract.py:412 | Python's code-point order on strings is transitive |
| JsonKey.LessTotal | src/deidentify/address_to_census_tract.py:412 | any two different strings are ordered one way or the other |
| JsonKey.Insert | src/deidentify/address_to_census_tract.py:412 | inserting an entry with a new key into a key-sorted list keeps it sorted and adds exactly that entry |
| JsonKey.SortByKey | src/deidentify/address_to_census_tract.py:412 | `sort_keys=True` orders the entries by key and is a permutation of them |
| JsonKey.SortedUnique | src/deidentify/address_to_census_tract.py:412 | two key-sorted lists with the same entries are equal |
| JsonKey.DeserializeSerialize | src/deidentify/address_to_census_tract.py:412 | reading back the JSON text of an address yields the address: the key text loses nothing |
| JsonKey.SerializeInjective | src/deidentify/address_to_census_tract.py:412 | different addresses never share a JSON text |
| JsonKey.SortedKeyIff | src/deidentify/address_to_census_tract.py:398 | two addresses get the same sorted cache key if and only if they hold the same entries, whatever their order |
| JsonKey.InsertionKeyIff | src/address_to_census_tract.py:242 | the older, unsorted key is equal for two addresses if and only if they are equal as ordered lists |
| JsonKey.InsertionOrderMatters | src/address_to_census_tract.py:130 | a concrete pair of addresses with the same entries shares the sorted key but not the unsorted one |
| ResultCache.Create | src/deidentify/address_to_census_tract.py:387 | a new cache has the given time-to-live and no key reads as present |
| ResultCache.Read | src/deidentify/address_to_census_tract.py:396-403 | a key reads as present exactly when it is stored and has not expired, and then gives the stored value |
| ResultCache.Write | src/deidentify/address_to_census_tract.py:412 | after a write the key reads the new value for exactly one time-to-live, and every other key reads as before |
| ResultCache.WriteOverwrites | src/deidentify/address_to_census_tract.py:412 | a later write to a key replaces the earlier one entirely |
| Geocoder.FirstMissing | src/deidentify/address_to_census_tract.py:457-464 | the first role the address lacks; None exactly when none is missing |
| Geocoder.UsStreetLookup | src/deidentify/address_to_census_tract.py:447-468 | the lookup succeeds exactly when all six roles are present, carries their values, one candidate and the `Invalid` strategy; otherwise it raises `InvalidAddressMappingError` for the first missing role |
| Geocoder.LookupAddress | src/deidentify/address_to_census_tract.py:418-445 | no street: None and no call; otherwise one street call, `{}` when there is no candidate, else the first candidate's coordinates |
| Geocoder.TruthyValues | src/deidentify/address_to_census_tract.py:510 | the non-empty values of the address, and nothing else; a single entry gives its value exactly when it is truthy |
| Geocoder.TruthyValuesAppend | src/deidentify/address_to_census_tract.py:510 | the values are taken entry by entry: those of two concatenated addresses are the first's followed by the second's, so the text keeps the address order |
| Geocoder.FirstWithCandidates | src/deidentify/address_to_census_tract.py:518-522 | the first address group that has a candidate, or None when no group has one |
| Geocoder.ExtractAddress | src/deidentify/address_to_census_tract.py:489-522 | one extract call on the joined text; `{}` if and only if no group has a candidate, else the first candidate of the first such group |
| Geocoder.GeocodeUncachedAddress | src/deidentify/address_to_census_tract.py:327-348 | a cached dict is returned without a call; otherwise the street lookup runs, and the extract fallback runs exactly when its response is falsy; the result is always a dict; a failure carries the street lookup's InvalidAddressMappingError for the first missing role |
| Boundary.FirstContaining | src/deidentify/address_to_census_tract.py:548-550 | the first polygon in list order that contains the point, or None when none does |
| Boundary.LatLngToPolygon | src/deidentify/address_to_census_tract.py:537-553 | the GEOID of the first polygon containing the point (longitude, latitude), None when no polygon contains it |
| Boundary.UniqueContainerResolves | src/deidentify/address_to_census_tract.py:548-550 | a point inside exactly one polygon resolves to that polygon's GEOID, wherever it stands in the list |
| Boundary.CoordinateOrder | src/deidentify/address_to_census_tract.py:543-546 | the point is built as (longitude, latitude): a concrete case that resolves, while swapped coordinates do not |
| Boundary.CensusTractJsonRecord | src/deidentify/address_to_census_tract.py:264-275 | no tract for a falsy response or zero latitude and longitude; otherwise the tract of the coordinates |
| Address.AddressKeys | src/deidentify/address_to_census_tract.py:253 | the field names the map sets: a name is listed if and only if it is non-empty and a value of the map |
| Address.Pick | src/deidentify/address_to_census_tract.py:254-257 | succeeds if and only if the record has every key, then holds exactly those entries; otherwise `AddressTranslationError` |
| Address.AddressDataJsonRecord | src/deidentify/address_to_census_tract.py:244-262 | `AddressTranslationError` if and only if a mapped field is missing; `NoAddressDataFoundError` if and only if the map sets no field; otherwise exactly the record's mapped entries |
| Address.NormalizeValues | src/deidentify/address_to_census_tract.py:479-480 | every value becomes the normalized text of `str(value)`, keys unchanged |
| Address.StandardizeRoles | src/deidentify/address_to_census_tract.py:482-487 | it succeeds exactly when every set field is present; the result holds each named role's value, and its keys are the map's non-empty roles in map order |
| Address.StandardizeAddress | src/deidentify/address_to_census_tract.py:470-487 | KeyError if and only if a set role's field is missing; otherwise the keys are the non-empty roles of the map, in map order, an unset role keeps its None or `""`, and a set role gets its field's normalized text |
| Address.NormalizeValuesIdempotent | src/deidentify/address_to_census_tract.py:479-480 | normalizing an address twice equals normalizing it once |
| Address.StandardizeIdempotent | src/deidentify/address_to_census_tract.py:470-487 | standardizing an already normalized address gives the same result |
| Address.StandardizeRolesSameFailure | src/deidentify/address_to_census_tract.py:483-485 | two records holding the same mapped fields raise the same KeyError, for the same missing field |
| Address.SameMappedFieldsSameAddress | src/deidentify/address_to_census_tract.py:470-487 | two addresses whose mapped fields are present together and normalize to the same text (for instance differing only in case or surrounding spaces) standardize to the same address or the same KeyError, and so share one sorted cache key |
| Address.ExtractedAddressStandardizes | src/deidentify/address_to_census_tract.py:226-229 | any address `address_data_json_record` returns standardizes without KeyError under the same map |
| Pipeline.CheckCache | src/deidentify/address_to_census_tract.py:390-403 | the stored response on a live hit, None otherwise; with dict-only contents, a dict exactly on a hit |
| Pipeline.SaveToCache | src/deidentify/address_to_census_tract.py:405-412 | the response is readable under the sorted key for one time-to-live, every other key unchanged, dict-only contents kept |
| Pipeline.SaveThenCheck | src/deidentify/address_to_census_tract.py:390-412 | a saved response is found by `check_cache` within the time-to-live for any address holding the same entries, whatever their insertion order |
| Pipeline.LaterSaveWins | src/deidentify/address_to_census_tract.py:405-412 | of two saves for one address, `check_cache` finds the later response |
| Pipeline.RemoveFirst | src/deidentify/address_to_census_tract.py:238 | `list.remove` takes out one occurrence: one element shorter, the multiset minus that element |
| Pipeline.DropKeys | src/deidentify/address_to_census_tract.py:237-238 | all map values are dropped; with `keep_zipcode`, it raises KeyError exactly when the map has no zipcode role |
| Pipeline.DropKeysAllMeaning | src/deidentify/address_to_census_tract.py:237-240 | a field is dropped if and only if some role names it, unless `keep_zipcode` spares it as the only naming of the zipcode role |
| Pipeline.OutputRecord | src/deidentify/address_to_census_tract.py:240-241 | the output keys are `census_tract` plus the record keys not dropped, each with its original value |
| Pipeline.TractValue | src/deidentify/address_to_census_tract.py:241 | the tract is written as JSON null exactly when none was found |
| Pipeline.StdAddressOf | src/deidentify/address_to_census_tract.py:226-229 | extraction then standardization fails only where extraction fails, and otherwise gives each role its value |
| Pipeline.ProcessJsonRecord | src/deidentify/address_to_census_tract.py:207-242 | an extraction error makes no call and leaves the cache alone; on a cache miss or with `invalidate_cache` the response and calls are those of uncached geocoding, and its error leaves the cache alone; a geocoded response is cached under the sorted key, including `{}`, and no other key changes; once a response is geocoded the record succeeds iff the drop list can be built, and otherwise fails with its KeyError("zipcode"); a successful output is de-identified and carries the tract of the response |
| Pipeline.CacheHitMakesNoCalls | src/deidentify/address_to_census_tract.py:231-233 | a live cached dict is used as is: no service call, and the output succeeds exactly when dropping the keys does |
| Pipeline.InvalidateIgnoresCache | src/deidentify/address_to_census_tract.py:230-233 | with `invalidate_cache` set, the output, the response and the calls do not depend on the cache |
| Pipeline.RepeatWithinTtl | src/deidentify/address_to_census_tract.py:231-234 | the same record again within the time-to-live, cache enabled, makes no service call and gives the same output |
| Pipeline.NegativeResultCached | src/deidentify/address_to_census_tract.py:341-348 | when both lookups find nothing, `{}` is cached for one time-to-live and the tract is null |
| Pipeline.Run | src/deidentify/address_to_census_tract.py:153-162 | records are processed in order, threading the cache; a success has one output and one call list per record |
| Pipeline.RunFailsAtFirst | src/deidentify/address_to_census_tract.py:154-158 | the loop fails exactly when some record raises after every record before it succeeded; it fails with that record's error, and only the records up to it were processed |
| Pipeline.RunSucceedsIffEveryStep | src/deidentify/address_to_census_tract.py:154-158 | the loop succeeds exactly when every record, processed against the cache its predecessors left, succeeds |
| Pipeline.RunPrefix | src/deidentify/address_to_census_tract.py:154-158 | a successful run's prefix is the successful run of the prefix records |
| Pipeline.RunElement | src/deidentify/address_to_census_tract.py:155-158 | the i-th output and calls come from processing record i against the cache the records before it left |
| Pipeline.RunNeighbours | src/deidentify/address_to_census_tract.py:154-156 | each record sees the cache its predecessor left |
| Pipeline.RunKeepsTtl | src/deidentify/address_to_census_tract.py:151-162 | processing never changes the cache's time-to-live |
| Pipeline.ProcessJson | src/deidentify/address_to_census_tract.py:126-165 | the batch succeeds iff every record succeeds; it fails exactly when some record raises after all before it succeeded, with that record's error, having processed the records up to it, and then saves the cache as loaded; a successful batch has one de-identified output per record, and an empty batch succeeds with no output and saves the cache as loaded |
| Pipeline.ProcessJsonSteps | src/deidentify/address_to_census_tract.py:153-162 | in a successful batch the i-th output and call list are those of the i-th record processed against the cache its predecessors left, so each output carries the tract of its own response, and the cache `save_cache` persists is the one the last record left |
| Pipeline.ProcessRepeatWithinTtl | src/deidentify/address_to_census_tract.py:155-156 | the batch's processing step makes no call for a repeat within the time-to-live |
| Pipeline.StepKeepsLive | src/deidentify/address_to_census_tract.py:405-412 | processing a record keeps every live cached dict live for the rest of that record's window: it writes only its own key, and with a dict |
| Pipeline.DuplicateWithinTtlGeocodedOnce | src/deidentify/address_to_census_tract.py:153-162 | with a clock that never runs backwards, a later record whose address standardizes like an earlier one's, within the earlier one's time-to-live, makes no call, whatever records come between, for a cache that never evicts (see Left out) |
| Pipeline.RecordWritesKey | src/deidentify/address_to_census_tract.py:229-234 | in a successful batch each record leaves a dict under its sorted key, live for its time-to-live |
| Pipeline.RunCacheServesRecord | src/deidentify/address_to_census_tract.py:153-160 | after a successful loop, with a clock that never runs backwards, the cache holds a dict under every record's key from the last record's time until that record's time-to-live ends, for a cache that never evicts |
| Pipeline.SavedCacheServesRecords | src/deidentify/address_to_census_tract.py:153-162 | the cache `save_cache` persists after a successful batch serves each record's address until its time-to-live ends, so processing the record again later without `invalidate_cache` makes no call |
| Scenarios.KpMapFindsNoAddress | src/config.py:18 | the empty `kp` map makes every record raise `NoAddressDataFoundError` before any call |
| Scenarios.DefaultMapDropsOnlyAddress | src/config.py:19-26 | under the default map the `address` field, and only it, is dropped, with or without `keep_zipcode` |
| Scenarios.DefaultAddressKeys | src/config.py:19-26 | under the default map only the `address` field is taken out of the record |
| Scenarios.DefaultMapStandardizes | src/config.py:19-26 | the street becomes the normalized `address` text and every other role is None |
| Scenarios.SchMapNeverGeocodes | src/config.py:10-17 | the `sch` map names `street3` instead of `secondary`, so a record with `invalidate_cache`, or with no live cached dict under its key in the loaded cache, makes no call and fails, with `InvalidAddressMappingError("secondary")` once its address is extracted |
| Scenarios.SchLookupFails | src/deidentify/address_to_census_tract.py:455-464 | a street lookup for an address with the `sch` roles fails on `secondary` |
| Legacy.NormalizeStrings | src/address_to_census_tract.py:313-314 | every string value is normalized, keys unchanged |
| Legacy.RoleEntry | src/address_to_census_tract.py:317-322 | a role missing from the map or a set role's missing field raises KeyError naming it; an unset role keeps its value; a set role reads its field |
| Legacy.RoleEntries | src/address_to_census_tract.py:316-323 | the roles are read in order, the first failure raises; on success, keys in role order with each role's entry |
| Legacy.LegacyStandardizeAddress | src/address_to_census_tract.py:301-323 | `AddressTranslationNotFoundError` if and only if a key is not a map value; then AttributeError if and only if a value is not a string; then KeyError; on success the six roles in order with their values |
| Legacy.AddressAlwaysMapped | src/address_to_census_tract.py:108-112 | the address the loop builds always passes the subset check, so `AddressTranslationNotFoundError` cannot arise inside `process_json` |
| Legacy.LegacyLookupAddress | src/address_to_census_tract.py:252-281 | no street: None and no call; otherwise one street call, None when there is no candidate, else the first candidate; a missing role raises KeyError |
| Legacy.LegacyExtractAddress | src/address_to_census_tract.py:325-358 | only the first address group is looked at: IndexError if and only if it has no candidate; no group gives None |
| Legacy.LegacyCheckCache | src/address_to_census_tract.py:236-244 | the value stored under the unsorted key on a live hit, None otherwise |
| Legacy.AddressOf | src/address_to_census_tract.py:108 | exactly the record entries whose key is a map value |
| Legacy.LegacyTract | src/address_to_census_tract.py:132-138 | a tract only for a response whose latitude and longitude are both non-zero |
| Legacy.LegacyGeocode | src/address_to_census_tract.py:113-122 | a truthy cached response is used with no call; otherwise the street lookup runs and a truthy lookup response is final, and a falsy one falls back to the extract service, whose response is used after the calls of both; it fails exactly when the lookup fails or the needed fallback fails, with that error |
| Legacy.LegacySaveToCache | src/address_to_census_tract.py:124-130 | only a truthy response is written, under the unsorted key; every other key unchanged |
| Legacy.LegacyOutputRecord | src/address_to_census_tract.py:146-147 | the output is a dictionary that drops exactly the address fields, keeps every other field's value and adds `census_tract` |
| Legacy.LegacyProcessRecord | src/address_to_census_tract.py:106-147 | no mapped field raises `NoAddressDataFoundError`; a standardization or geocoding error propagates with the cache unchanged; otherwise the response and calls are those of geocoding; the cache changes only for a truthy response, stored under the unsorted key; the output drops the address fields, keeps the other values and carries the tract |
| Legacy.LegacyCacheHitMakesNoCalls | src/address_to_census_tract.py:113-115 | a live cached response is used with no service call |
| Legacy.LegacyNegativeRepeats | src/address_to_census_tract.py:124-130 | a falsy response leaves the cache unchanged, so processing the record again repeats the same calls and result |
| Legacy.LegacyStandardizeIgnoresOrder | src/address_to_census_tract.py:301-323 | the older standardized address, and so its unsorted key, depends only on the address's entries, not their order |
| Legacy.LegacyExtractFirstGroupOnly | src/address_to_census_tract.py:352-358 | a concrete extract response whose first group is empty makes the older code raise IndexError, while the newer returns the second group's candidate |
| Legacy.LegacyRejectsNumericField | src/address_to_census_tract.py:313-314 | a numeric zipcode makes the older standardize raise AttributeError |
| Legacy.NumericFieldsPresent | src/address_to_census_tract.py:313-314 | the numeric example's map is well formed and names fields the address has |
| Legacy.NumericZipText | src/deidentify/address_to_census_tract.py:480 | `str()` of the numeric zipcode is its digits, already normalized |
| Legacy.NumberIsNormalized | src/deidentify/address_to_census_tract.py:480 | the text of any integer is its own normalization |
| Legacy.NewerAcceptsNumericField | src/deidentify/address_to_census_tract.py:479-485 | the newer standardize turns the same numeric zipcode into the text `"98144"` |
| Pii.LettersOnly | src/deidentify/pii_deidentifier.py:75 | the kept characters are exactly the ASCII letters of the text; a single character is kept exactly when it is a letter |
| Pii.LettersOnlyAppend | src/deidentify/pii_deidentifier.py:75 | removal works character by character: the letters of two concatenated texts are the first's followed by the second's, so they stay in order |
| Pii.NormalizePii | src/deidentify/pii_deidentifier.py:70-71 | every value becomes the normalized text of `str(value)`, keys unchanged |
| Pii.PiiEntry | src/deidentify/pii_deidentifier.py:75-78 | a role missing from the map or a set role's missing field raises KeyError naming it; an unset role keeps its value; a set role reads its field, the name keeping only letters |
| Pii.PiiEntries | src/deidentify/pii_deidentifier.py:74-79 | the roles are read in order; it succeeds exactly when every role does, with keys in role order |
| Pii.StandardizePii | src/deidentify/pii_deidentifier.py:61-79 | KeyError unless every role is mapped and every set field present; otherwise the four roles in order with their standardized values |
| Pii.NameIsCapitalLetters | src/deidentify/pii_deidentifier.py:75 | a standardized name holds only the letters A to Z |
| Pii.HashedText | src/deidentify/pii_deidentifier.py:52-57 | TypeError if and only if a value is None; otherwise the values joined by single spaces, then the secret |
| Pii.GenerateHash | src/deidentify/pii_deidentifier.py:48-58 | the digest of the hashed text, failing exactly when that text does |
| Pii.SameNormalizedSameHash | src/deidentify/pii_deidentifier.py:61-79 | two records with the same fields whose values normalize to the same text get the same standardized record and the same identifier; with Text.NormalizeIgnoresCaseAndSpace this covers values differing only in case or surrounding spaces |
| Pii.EmptyPiiMapFails | src/config.py:36 | the empty `sch` PII map makes every record raise KeyError for `name` |
| Pii.FullMapStandardizes | src/config.py:30-35 | a map like the default one gives the name as the letters of its field and each other role its field's normalized text |

## Left out

- The command line, `__main__` and the root-level `address_to_census_tract.py` script: argument parsing and I/O only.
- The CSV and Excel paths (`process_csv_or_excel`, `census_tract_csv_or_excel` and the pandas code of `pii_deidentifier`): they repeat the JSON path on data frames.
- Reading the input file, writing the output file and printing results: I/O.
- `load_geojson` and Shapely: the polygons are given as a list, and `shape.contains` is a parameter.
- The SmartyStreets client builder, credentials and the network: the services are parameters of `Geocoder.Services`.
- `load_or_create_cache` and `save_cache`: pickle persistence. The loaded cache is a parameter, and the saved cache is part of the batch result.
- The cache's `maxsize` eviction (`TTLCache(maxsize=100000, ...)`, which drops the least recently used entry once full): the model's cache never evicts, only the time-to-live rule is modelled.
- Pipeline.DuplicateWithinTtlGeocodedOnce, Pipeline.LiveThroughRun, Pipeline.RunCacheServesRecord and Pipeline.SavedCacheServesRecords assume no eviction: in the source, once 100000 entries are held, writing another address evicts the least recently used one, so enough records with other addresses after a record can evict its entry and the address is then geocoded again.
- Logging.
- Floating point: coordinates are `real`, and JSON numbers in records are integers.
- JSON arrays and objects as record values: `Records.Value` has only null, booleans, integers and strings. Python's `str()` of a list or dict in an address field is not modelled, and nested values passed through to the output are not either.
- `json.dumps` escapes other than `"` and `\`: control characters and non-ASCII characters are written as they are.
- `str.upper` and `str.strip` beyond ASCII: letters and whitespace outside ASCII are left unchanged.
- The regular expression of `standardize_pii` is modelled for ASCII input only.
- SHA-256 in `generate_hash`: the digest is the parameter `hash`.
- The `PARTICIPANT_DEIDENTIFIER_SECRET` environment variable: the secret is a parameter.
- The older revision's batch loop: it has the same shape as the newer one's (`Pipeline.Run`); only its per-record body, `Legacy.LegacyProcessRecord`, is modelled.
- `src/benchmark.py`: timing code.
- Error messages (`__str__` of the exception classes): only which exception is raised is modelled.

## Findings

| source | as written | input that shows it | evidently intended | confidence | as-written member | corrected member |
|---|---|---|---|---|---|---|
| src/address_to_census_tract.py:352-358 | `extract_address` reads `candidates[0]` of the first address group and returns in the loop's first iteration | an extract response whose first address group has no candidate and whose second group has one | skip groups without candidates and return the first candidate found, else `{}` | not executed | Legacy.LegacyExtractFirstGroupOnly | Geocoder.ExtractAddress |
| src/address_to_census_tract.py:313-314 | `standardize_address` calls `.upper()` on the raw value | an address whose zipcode is the JSON number 98144 | convert the value with `str()` first, so the zipcode becomes `"98144"` | not executed | Legacy.LegacyRejectsNumericField | Legacy.NewerAcceptsNumericField |

In both rows the as-written code is also modelled in full (`Legacy.LegacyExtractAddress`, `Legacy.LegacyStandardizeAddress`). The corrected behaviour is the newer revision's (`Geocoder.ExtractAddress`, `Address.StandardizeAddress`), which the main pipeline uses.

=== FILE: address.dfy ===
/**
 * Address handling of the newer revision: taking the mapped fields out of a
 * record and standardizing them into a role-keyed address.
 */
module Address {
  import opened Wrappers
  import opened Dicts
  import opened Errors
  import opened Records
  import Text
  import Geocoder
  import JsonKey

  /** Role name (`street`, `city`, ...) to the record field holding it, or None when unset. */
  type AddressMap = Dict<string, Option<string>>

  /** `list(filter(None, address_map.values()))`: the field names of the set roles, in map order. */
  function AddressKeys(m: AddressMap): (ks: seq<string>)
    ensures forall f :: f in ks <==> f != "" && Some(f) in Values(m)
  {
    if |m| == 0 then []
    else
      var rest := AddressKeys(m[1..]);
      assert Values(m) == [m[0].1] + Values(m[1..]);
      if Geocoder.Truthy(m[0].1) then [m[0].1.value] + rest else rest
  }

  /** `{key: record[key] for key in keys}`, raising on the first key the record lacks. */
  function Pick(record: Record, keys: seq<string>): (r: Result<Record, Error>)
    requires DistinctKeys(record)
    ensures r.Success? <==> forall k | k in keys :: k in Keys(record)
    ensures r.Failure? ==> r.error == AddressTranslationError
    ensures r.Success? ==> DistinctKeys(r.value)
    ensures r.Success? ==> forall e :: e in r.value <==> e.0 in keys && e in record
    ensures r.Success? ==> (|r.value| == 0 <==> |keys| == 0)
  {
    if |keys| == 0 then Success([])
    else
      var k := keys[|keys| - 1];
      assert forall x | x in keys :: x in keys[..|keys| - 1] || x == k;
      match Pick(record, keys[..|keys| - 1])
      case Failure(e) => Failure(e)
      case Success(prefix) =>
        match Get(record, k)
        case None => Failure(AddressTranslationError)
        case Some(v) =>
          var r := Put(prefix, k, v);
          assert forall e :: e in r <==> e in prefix || e == (k, v) by {
            forall e ensures e in r <==> e in prefix || e == (k, v) {
              if e in r && e.0 != k {
                assert Get(r, e.0) == Some(e.1);
                assert Get(prefix, e.0) == Some(e.1);
              }
              if e in r && e.0 == k {
                assert Get(r, k) == Some(e.1);
              }
              if e in prefix {
                if e.0 == k {
                  assert (k, e.1) in record;
                } else {
                  assert Get(prefix, e.0) == Some(e.1);
                  assert Get(r, e.0) == Some(e.1);
                }
              }
            }
          }
          Success(r)
  }

  /**
   * `address_data_json_record`: the record entries whose keys are the fields
   * of the set roles; a set role whose field the record lacks raises
   * `AddressTranslationError`; a map with no set role raises
   * `NoAddressDataFoundError`.
   */
  function AddressDataJsonRecord(record: Record, m: AddressMap): (r: Result<Record, Error>)
    requires DistinctKeys(record)
    ensures r == Failure(AddressTranslationError) <==>
      exists f | f in AddressKeys(m) :: f !in Keys(record)
    ensures r == Failure(NoAddressDataFoundError) <==> |AddressKeys(m)| == 0
    ensures r.Failure? ==> r.error in {AddressTranslationError, NoAddressDataFoundError}
    ensures r.Success? ==> DistinctKeys(r.value)
    ensures r.Success? ==> forall e :: e in r.value <==> e.0 in AddressKeys(m) && e in record
  {
    var keys := AddressKeys(m);
    var address :- Pick(record, keys);
    if |address| == 0 then Failure(NoAddressDataFoundError) else Success(address)
  }

  /** `for key in address: address[key] = str(address[key]).upper().strip()` */
  function NormalizeValues(address: Record): (r: Record)
    ensures Keys(r) == Keys(address)
    ensures forall i | 0 <= i < |address| :: r[i].1 == JStr(Text.Normalize(Str(address[i].1)))
  {
    seq(|address|, i requires 0 <= i < |address| => (address[i].0, JStr(Text.Normalize(Str(address[i].1)))))
  }

  /** What a role standardizes to when the address lacks no mapped field. */
  function RoleValue(address: Record, field: Option<string>): Option<string>
    requires Geocoder.Truthy(field) ==> field.value in Keys(address)
  {
    if !Geocoder.Truthy(field) then field
    else Some(Text.Normalize(Str(Get(address, field.value).value)))
  }

  predicate FieldsPresent(address: Record, m: AddressMap) {
    forall i | 0 <= i < |m| :: m[i].0 != "" && Geocoder.Truthy(m[i].1) ==> m[i].1.value in Keys(address)
  }

  /** The role value read from a record whose values are already normalized. */
  function StoredRoleValue(n: Record, field: Option<string>): Option<string>
    requires Geocoder.Truthy(field) ==> field.value in Keys(n)
  {
    if !Geocoder.Truthy(field) then field else Some(Str(Get(n, field.value).value))
  }

  predicate NamedRole(role: string) {
    role != ""
  }

  /** The roles of `m` other than `""`, in map order: the keys of a standardized address. */
  function NamedRoles(m: AddressMap): seq<string> {
    Keys(Where(m, NamedRole))
  }

  /** The standardized address `r` holds, for each named role of `m`, its value read from `n`. */
  ghost predicate RolesStandardized(r: Geocoder.StdAddress, n: Record, m: AddressMap)
    requires FieldsPresent(n, m)
  {
    && DistinctKeys(r)
    && (forall role :: role in Keys(r) <==> role != "" && role in Keys(m))
    && forall i | 0 <= i < |m| && m[i].0 != "" :: Get(r, m[i].0) == Some(StoredRoleValue(n, m[i].1))
  }

  /** Standardizes the roles of `m` in order, reading the already normalized `n`. */
  function StandardizeRoles(n: Record, m: AddressMap): (r: Result<Geocoder.StdAddress, Error>)
    requires DistinctKeys(m)
    ensures r.Success? <==> FieldsPresent(n, m)
    ensures r.Failure? ==> r.error.KeyError?
    ensures r.Success? ==> RolesStandardized(r.value, n, m)
    ensures r.Success? ==> Keys(r.value) == NamedRoles(m)
  {
    if |m| == 0 then Success([])
    else
      var last := m[|m| - 1];
      var init := m[..|m| - 1];
      assert forall i | 0 <= i < |init| :: init[i] == m[i];
      match StandardizeRoles(n, init)
      case Failure(e) => Failure(e)
      case Success(prefix) =>
        var (role, field) := last;
        if Geocoder.Truthy(field) && role != "" && field.value !in Keys(n) then
          Failure(KeyError(field.value))
        else
          var r := if role == "" then prefix else Put(prefix, role, StoredRoleValue(n, field));
          StandardizeStep(n, m, prefix, r);
          NamedRolesStep(m, prefix, r, if role == "" then None else StoredRoleValue(n, field));
          Success(r)
  }

  lemma StandardizeStep(n: Record, m: AddressMap, prefix: Geocoder.StdAddress, r: Geocoder.StdAddress)
    requires |m| > 0 && DistinctKeys(m)
    requires FieldsPresent(n, m[..|m| - 1]) && RolesStandardized(prefix, n, m[..|m| - 1])
    requires var (role, field) := m[|m| - 1];
      (Geocoder.Truthy(field) && role != "" ==> field.value in Keys(n)) &&
      r == if role == "" then prefix else Put(prefix, role, StoredRoleValue(n, field))
    ensures FieldsPresent(n, m) && RolesStandardized(r, n, m)
    ensures m[|m| - 1].0 !in Keys(prefix)
  {
    var init := m[..|m| - 1];
    var (role, field) := m[|m| - 1];
    assert forall i | 0 <= i < |init| :: init[i] == m[i];
    assert Keys(m) == Keys(init) + [role];
    assert role !in Keys(init) by {
      assert forall i | 0 <= i < |init| :: Keys(init)[i] == Keys(m)[i];
    }
    forall i | 0 <= i < |m| && m[i].0 != ""
      ensures Get(r, m[i].0) == Some(StoredRoleValue(n, m[i].1))
    {
      if i < |init| {
        assert m[i].0 != role;
        assert Get(r, m[i].0) == Get(prefix, m[i].0);
      }
    }
  }

  /** Standardizing one more role appends it to the keys when it is named. */
  lemma NamedRolesStep(m: AddressMap, prefix: Geocoder.StdAddress, r: Geocoder.StdAddress, v: Option<string>)
    requires |m| > 0
    requires Keys(prefix) == NamedRoles(m[..|m| - 1])
    requires var role := m[|m| - 1].0;
      role !in Keys(prefix) && r == if role == "" then prefix else Put(prefix, role, v)
    ensures Keys(r) == NamedRoles(m)
  {
    var role := m[|m| - 1].0;
    NamedRolesLast(m);
    if role != "" {
      assert r == prefix + [(role, v)];
      KeysAppend(prefix, [(role, v)]);
      assert Keys([(role, v)]) == [role];
    }
  }

  /** The named roles of a map are those of all but its last entry, then the last role when it is named. */
  lemma NamedRolesLast(m: AddressMap)
    requires |m| > 0
    ensures NamedRoles(m) == NamedRoles(m[..|m| - 1]) + (if m[|m| - 1].0 != "" then [m[|m| - 1].0] else [])
  {
    var init, last := m[..|m| - 1], m[|m| - 1];
    var kept := Where(init, NamedRole);
    var added: AddressMap := if last.0 != "" then [last] else [];
    assert Where(m, NamedRole) == kept + added by {
      assert m == init + [last];
      WhereSnoc(init, last, NamedRole);
    }
    KeysAppend(kept, added);
    assert Keys(added) == if last.0 != "" then [last.0] else [];
  }

  /**
   * `standardize_address`: every value is normalized, then each named role of
   * the map gets None when unset, `""` when mapped to `""`, and otherwise the
   * normalized value of its field. A field the address lacks raises KeyError.
   */
  function StandardizeAddress(address: Record, m: AddressMap): (r: Result<Geocoder.StdAddress, Error>)
    requires DistinctKeys(m)
    ensures r.Success? <==> FieldsPresent(address, m)
    ensures r.Failure? ==> r.error.KeyError?
    ensures r.Success? ==> DistinctKeys(r.value)
    ensures r.Success? ==> forall role :: role in Keys(r.value) <==> role != "" && role in Keys(m)
    ensures r.Success? ==> Keys(r.value) == NamedRoles(m)
    ensures r.Success? ==> forall i | 0 <= i < |m| && m[i].0 != "" ::
      Get(r.value, m[i].0) == Some(RoleValue(address, m[i].1))
  {
    var n := NormalizeValues(address);
    NormalizedRoleValues(address, m);
    StandardizeRoles(n, m)
  }

  lemma NormalizedRoleValues(address: Record, m: AddressMap)
    ensures FieldsPresent(NormalizeValues(address), m) <==> FieldsPresent(address, m)
    ensures FieldsPresent(address, m) ==> forall i | 0 <= i < |m| && m[i].0 != "" ::
      StoredRoleValue(NormalizeValues(address), m[i].1) == RoleValue(address, m[i].1)
  {
    var n := NormalizeValues(address);
    if FieldsPresent(address, m) {
      forall i | 0 <= i < |m| && m[i].0 != "" ensures StoredRoleValue(n, m[i].1) == RoleValue(address, m[i].1) {
        if Geocoder.Truthy(m[i].1) {
          var f := m[i].1.value;
          var j := FirstIndex(Keys(address), f);
          assert Keys(n)[j] == f;
          assert Get(n, f) == Some(n[j].1);
          assert Get(address, f) == Some(address[j].1);
        }
      }
    }
  }

  /** Normalizing the values twice is the same as normalizing them once. */
  lemma {:induction false} NormalizeValuesIdempotent(address: Record)
    ensures NormalizeValues(NormalizeValues(address)) == NormalizeValues(address)
  {
    var n := NormalizeValues(address);
    var nn := NormalizeValues(n);
    forall i | 0 <= i < |address| ensures nn[i] == n[i] {
      Text.NormalizeIdempotent(Str(address[i].1));
    }
  }

  /** Standardizing an already standardized record gives the same result. */
  lemma StandardizeIdempotent(address: Record, m: AddressMap)
    requires DistinctKeys(m)
    ensures StandardizeAddress(NormalizeValues(address), m) == StandardizeAddress(address, m)
  {
    NormalizeValuesIdempotent(address);
  }

  /**
   * Every address that `address_data_json_record` returns can be standardized
   * with the same map: the KeyError branch of `standardize_address` is
   * unreachable in the pipeline.
   */
  lemma ExtractedAddressStandardizes(record: Record, m: AddressMap)
    requires DistinctKeys(record) && DistinctKeys(m)
    requires AddressDataJsonRecord(record, m).Success?
    ensures StandardizeAddress(AddressDataJsonRecord(record, m).value, m).Success?
  {
    var address := AddressDataJsonRecord(record, m).value;
    var keys := AddressKeys(m);
    forall i | 0 <= i < |m| && m[i].0 != "" && Geocoder.Truthy(m[i].1)
      ensures m[i].1.value in Keys(address)
    {
      var f := m[i].1.value;
      assert m[i].1 == Values(m)[i];
      assert f in keys;
      assert f in Keys(record);
      var v := Get(record, f).value;
      assert (f, v) in address;
      var j :| 0 <= j < |address| && address[j] == (f, v);
      assert Keys(address)[j] == f;
    }
  }

  /** Every field a named role of `m` reads is in both addresses or in neither, and normalizes the same in both. */
  predicate SameMappedFields(a1: Record, a2: Record, m: AddressMap) {
    forall i | 0 <= i < |m| && m[i].0 != "" && Geocoder.Truthy(m[i].1) ::
      && (m[i].1.value in Keys(a1) <==> m[i].1.value in Keys(a2))
      && (m[i].1.value in Keys(a1) ==>
            Text.Normalize(Str(Get(a1, m[i].1.value).value)) == Text.Normalize(Str(Get(a2, m[i].1.value).value)))
  }

  /** When both records hold the same mapped fields, standardizing them fails with the same KeyError. */
  lemma {:induction false} StandardizeRolesSameFailure(n1: Record, n2: Record, m: AddressMap)
    requires DistinctKeys(m)
    requires forall i | 0 <= i < |m| && m[i].0 != "" && Geocoder.Truthy(m[i].1) ::
      m[i].1.value in Keys(n1) <==> m[i].1.value in Keys(n2)
    ensures StandardizeRoles(n1, m).Failure? ==> StandardizeRoles(n2, m) == StandardizeRoles(n1, m)
    decreases |m|
  {
    if |m| > 0 {
      var init := m[..|m| - 1];
      assert forall i | 0 <= i < |init| :: init[i] == m[i];
      assert DistinctKeys(init);
      StandardizeRolesSameFailure(n1, n2, init);
    }
  }

  /**
   * Addresses whose mapped fields normalize to the same text, for instance
   * because they differ only in letter case or surrounding spaces,
   * standardize to the same address and so share one cache key.
   */
  lemma SameMappedFieldsSameAddress(a1: Record, a2: Record, m: AddressMap)
    requires DistinctKeys(m) && SameMappedFields(a1, a2, m)
    ensures StandardizeAddress(a1, m) == StandardizeAddress(a2, m)
    ensures StandardizeAddress(a1, m).Success? ==>
      JsonKey.SortedKey(StandardizeAddress(a1, m).value) == JsonKey.SortedKey(StandardizeAddress(a2, m).value)
  {
    var r1, r2 := StandardizeAddress(a1, m), StandardizeAddress(a2, m);
    assert FieldsPresent(a1, m) <==> FieldsPresent(a2, m);
    StandardizeRolesSameFailure(NormalizeValues(a1), NormalizeValues(a2), m);
    if r1.Success? {
      forall role | role in Keys(r1.value) ensures Get(r1.value, role) == Get(r2.value, role) {
        var i :| 0 <= i < |m| && m[i].0 == role;
        assert RoleValue(a1, m[i].1) == RoleValue(a2, m[i].1);
      }
      SameEntries(r1.value, r2.value);
    }
  }
}

=== FILE: boundary.dfy ===
/**
 * Census-tract resolution: a linear, first-match scan of the boundary
 * polygons. Polygon shapes are opaque (type parameter S) and containment is a
 * parameter `contains(shape, point)`.
 */
module Boundary {
  import opened Wrappers
  import opened Dicts
  import Geocoder

  /** A planar point: x is the longitude, y the latitude. */
  datatype Point = Point(x: real, y: real)

  /** A boundary feature: its shape and its properties bag. */
  datatype Tract<S> = Tract(shape: S, properties: Dict<string, string>)

  /** `polygon.get("properties", {}).get("GEOID")` */
  function Geoid<S>(t: Tract<S>): Option<string> {
    Get(t.properties, "GEOID")
  }

  /** The position of the first tract, in list order, whose shape contains `p`. */
  function FirstContaining<S>(tracts: seq<Tract<S>>, contains: (S, Point) -> bool, p: Point): (r: Option<nat>)
    ensures r.Some? ==>
      && r.value < |tracts|
      && contains(tracts[r.value].shape, p)
      && forall j | 0 <= j < r.value :: !contains(tracts[j].shape, p)
    ensures r.None? ==> forall j | 0 <= j < |tracts| :: !contains(tracts[j].shape, p)
  {
    if |tracts| == 0 then None
    else if contains(tracts[0].shape, p) then Some(0)
    else
      match FirstContaining(tracts[1..], contains, p)
      case None => None
      case Some(i) => Some(i + 1)
  }

  /**
   * `latlng_to_polygon`: builds the point as (lng, lat) and returns the GEOID
   * of the first tract containing it, or None when no tract contains it.
   */
  function LatLngToPolygon<S>(lat: real, lng: real, tracts: seq<Tract<S>>, contains: (S, Point) -> bool): (r: Option<string>)
    ensures (forall j | 0 <= j < |tracts| :: !contains(tracts[j].shape, Point(lng, lat))) ==> r.None?
    ensures forall i | 0 <= i < |tracts| ::
      (contains(tracts[i].shape, Point(lng, lat)) &&
       forall j | 0 <= j < i :: !contains(tracts[j].shape, Point(lng, lat)))
      ==> r == Geoid(tracts[i])
  {
    var point := Point(lng, lat);
    match FirstContaining(tracts, contains, point)
    case None => None
    case Some(k) =>
      forall i | 0 <= i < |tracts| && contains(tracts[i].shape, point) &&
                 (forall j | 0 <= j < i :: !contains(tracts[j].shape, point))
        ensures i == k
      {
        FirstIsUnique(tracts, contains, point, i, k);
      }
      Geoid(tracts[k])
  }

  /** Two positions that are both the first to contain `p` are the same position. */
  lemma FirstIsUnique<S>(tracts: seq<Tract<S>>, contains: (S, Point) -> bool, p: Point, i: nat, k: nat)
    requires i < |tracts| && contains(tracts[i].shape, p) && forall j | 0 <= j < i :: !contains(tracts[j].shape, p)
    requires k < |tracts| && contains(tracts[k].shape, p) && forall j | 0 <= j < k :: !contains(tracts[j].shape, p)
    ensures i == k
  {
  }

  /**
   * A point inside exactly one tract resolves to that tract's GEOID, wherever
   * the tract stands in the list.
   */
  lemma UniqueContainerResolves<S>(lat: real, lng: real, tracts: seq<Tract<S>>, contains: (S, Point) -> bool, k: nat)
    requires k < |tracts|
    requires contains(tracts[k].shape, Point(lng, lat))
    requires forall j | 0 <= j < |tracts| && j != k :: !contains(tracts[j].shape, Point(lng, lat))
    ensures LatLngToPolygon(lat, lng, tracts, contains) == Geoid(tracts[k])
  {
  }

  /**
   * The coordinate order is observable: with a shape that holds only points
   * west of the prime meridian, (lat 47.6, lng -122.3) resolves, while the
   * same numbers read as a (lat, lng) point would not.
   */
  lemma CoordinateOrder()
    ensures var westOnly := (s: int, p: Point) => p.x < 0.0;
            var tracts := [Tract(0, [("GEOID", "53033009000")])];
            && LatLngToPolygon(47.6, -122.3, tracts, westOnly) == Some("53033009000")
            && LatLngToPolygon(-122.3, 47.6, tracts, westOnly) == None
  {
    var westOnly := (s: int, p: Point) => p.x < 0.0;
    var tracts := [Tract(0, [("GEOID", "53033009000")])];
    assert Keys(tracts[0].properties) == ["GEOID"];
  }

  /**
   * `census_tract_json_record`: no tract for a falsy response or when latitude
   * and longitude are both zero; otherwise the tract of (lat, lng).
   */
  function CensusTractJsonRecord<S>(response: Geocoder.Response, tracts: seq<Tract<S>>, contains: (S, Point) -> bool): (r: Option<string>)
    ensures !response.IsTruthy() ==> r.None?
    ensures response.LatLng? && response.lat == 0.0 && response.lng == 0.0 ==> r.None?
    ensures response.LatLng? && (response.lat != 0.0 || response.lng != 0.0) ==>
      r == LatLngToPolygon(response.lat, response.lng, tracts, contains)
  {
    if !response.IsTruthy() || !(response.lat != 0.0 || response.lng != 0.0) then None
    else LatLngToPolygon(response.lat, response.lng, tracts, contains)
  }
}

=== FILE: dicts.dfy ===
/**
 * Python dictionaries as sequences of entries in insertion order. A dictionary
 * never holds a key twice; `DistinctKeys` states that invariant.
 */
module Dicts {
  import opened Wrappers

  type Dict<K, V> = seq<(K, V)>

  /** The dictionary invariant: no key occurs twice. */
  predicate DistinctKeys<K(==,!new), V(!new)>(d: Dict<K, V>) {
    forall i, j | 0 <= i < j < |d| :: d[i].0 != d[j].0
  }

  /** `list(d.keys())` */
  function Keys<K, V>(d: Dict<K, V>): (ks: seq<K>)
    ensures |ks| == |d|
    ensures forall i | 0 <= i < |d| :: ks[i] == d[i].0
  {
    seq(|d|, i requires 0 <= i < |d| => d[i].0)
  }

  lemma KeysCons<K, V>(e: (K, V), d: Dict<K, V>)
    ensures Keys([e] + d) == [e.0] + Keys(d)
  {
  }

  lemma KeysAppend<K, V>(a: Dict<K, V>, b: Dict<K, V>)
    ensures Keys(a + b) == Keys(a) + Keys(b)
  {
    assert forall i | 0 <= i < |a + b| :: Keys(a + b)[i] == (Keys(a) + Keys(b))[i];
  }

  /** `list(d.values())` */
  function Values<K, V>(d: Dict<K, V>): (vs: seq<V>)
    ensures |vs| == |d|
    ensures forall i | 0 <= i < |d| :: vs[i] == d[i].1
  {
    seq(|d|, i requires 0 <= i < |d| => d[i].1)
  }

  /** The position of the first occurrence of `k` in `ks`. */
  function FirstIndex<K(==)>(ks: seq<K>, k: K): (i: nat)
    requires k in ks
    ensures i < |ks| && ks[i] == k
    ensures forall j | 0 <= j < i :: ks[j] != k
  {
    if ks[0] == k then 0 else 1 + FirstIndex(ks[1..], k)
  }

  /** `d[k]` when `k in d`, else None. */
  function Get<K(==,!new), V(!new)>(d: Dict<K, V>, k: K): (r: Option<V>)
    ensures r.None? <==> k !in Keys(d)
    ensures r.Some? ==> (k, r.value) in d
    ensures DistinctKeys(d) ==> forall v :: (k, v) in d ==> r == Some(v)
  {
    if k in Keys(d) then Some(d[FirstIndex(Keys(d), k)].1) else None
  }

  /** `d[k] = v`: replaces the value in place when `k` is present, appends otherwise. */
  function Put<K(==,!new), V(!new)>(d: Dict<K, V>, k: K, v: V): (r: Dict<K, V>)
    ensures Get(r, k) == Some(v)
    ensures forall k' | k' != k :: Get(r, k') == Get(d, k')
    ensures forall k' :: k' in Keys(r) <==> k' in Keys(d) || k' == k
    ensures k !in Keys(d) ==> r == d + [(k, v)]
    ensures k in Keys(d) ==> Keys(r) == Keys(d)
    ensures DistinctKeys(d) ==> DistinctKeys(r)
  {
    if k in Keys(d) then
      var i := FirstIndex(Keys(d), k);
      var r := d[i := (k, v)];
      assert Keys(r) == Keys(d);
      forall k' | k' != k && k' in Keys(d) ensures Get(r, k') == Get(d, k') {
        assert FirstIndex(Keys(d), k') != i;
      }
      r
    else
      var r := d + [(k, v)];
      assert Keys(r) == Keys(d) + [k];
      forall k' | k' != k && k' in Keys(d) ensures Get(r, k') == Get(d, k') {
        var j1, j2 := FirstIndex(Keys(r), k'), FirstIndex(Keys(d), k');
        assert Keys(r)[j2] == k';
        assert j1 < |d|;
        assert Keys(d)[j1] == k';
      }
      r
  }

  /** `{k: d[k] for k in d if keep(k)}` */
  function Where<K(==,!new), V(!new)>(d: Dict<K, V>, keep: K -> bool): (r: Dict<K, V>)
    ensures forall e :: e in r <==> e in d && keep(e.0)
    ensures forall k :: k in Keys(r) <==> k in Keys(d) && keep(k)
    ensures DistinctKeys(d) ==> DistinctKeys(r)
  {
    if |d| == 0 then []
    else
      var rest := Where(d[1..], keep);
      var r := if keep(d[0].0) then [d[0]] + rest else rest;
      WhereStepEntries(d, keep, rest, r);
      WhereStepKeys(d, keep, rest, r);
      if DistinctKeys(d) then
        DistinctTail(d);
        if keep(d[0].0) then
          DistinctCons(d[0], rest);
          r
        else r
      else r
  }

  /** Filtering keeps the order of the entries: an entry added last is kept last, or dropped. */
  lemma {:induction false} WhereSnoc<K(!new), V(!new)>(d: Dict<K, V>, e: (K, V), keep: K -> bool)
    ensures Where(d + [e], keep) == Where(d, keep) + (if keep(e.0) then [e] else [])
  {
    if |d| > 0 {
      assert (d + [e])[0] == d[0];
      assert (d + [e])[1..] == d[1..] + [e];
      WhereSnoc(d[1..], e, keep);
    }
  }

  lemma WhereStepEntries<K(!new), V(!new)>(d: Dict<K, V>, keep: K -> bool, rest: Dict<K, V>, r: Dict<K, V>)
    requires |d| > 0
    requires forall e :: e in rest <==> e in d[1..] && keep(e.0)
    requires r == if keep(d[0].0) then [d[0]] + rest else rest
    ensures forall e :: e in r <==> e in d && keep(e.0)
  {
    assert d == [d[0]] + d[1..];
  }

  lemma WhereStepKeys<K(!new), V(!new)>(d: Dict<K, V>, keep: K -> bool, rest: Dict<K, V>, r: Dict<K, V>)
    requires |d| > 0
    requires forall k :: k in Keys(rest) <==> k in Keys(d[1..]) && keep(k)
    requires r == if keep(d[0].0) then [d[0]] + rest else rest
    ensures forall k :: k in Keys(r) <==> k in Keys(d) && keep(k)
  {
    assert Keys(d) == [d[0].0] + Keys(d[1..]);
    if keep(d[0].0) {
      assert Keys(r) == [d[0].0] + Keys(rest);
    }
  }

  /** The entries after the first of a dictionary form a dictionary without the first key. */
  lemma DistinctTail<K(!new), V(!new)>(d: Dict<K, V>)
    requires |d| > 0 && DistinctKeys(d)
    ensures DistinctKeys(d[1..])
    ensures d[0].0 !in Keys(d[1..])
  {
    forall j | 0 <= j < |d| - 1 ensures Keys(d[1..])[j] != d[0].0 {
      assert d[1..][j] == d[j + 1];
    }
  }

  /** An entry whose key is new, put in front of a dictionary, gives a dictionary. */
  lemma DistinctCons<K(!new), V(!new)>(e: (K, V), d: Dict<K, V>)
    requires DistinctKeys(d) && e.0 !in Keys(d)
    ensures DistinctKeys([e] + d)
  {
    var r := [e] + d;
    forall i, j | 0 <= i < j < |r| ensures r[i].0 != r[j].0 {
      assert r[j] == d[j - 1];
      assert Keys(d)[j - 1] == r[j].0;
    }
  }

  /** Two dictionaries with the same keys in the same order and the same value under each key are equal. */
  lemma SameEntries<K(!new), V(!new)>(d1: Dict<K, V>, d2: Dict<K, V>)
    requires DistinctKeys(d1) && DistinctKeys(d2) && Keys(d1) == Keys(d2)
    requires forall k | k in Keys(d1) :: Get(d1, k) == Get(d2, k)
    ensures d1 == d2
  {
    forall i | 0 <= i < |d1| ensures d1[i] == d2[i] {
      var k := d1[i].0;
      assert Keys(d1)[i] == k == Keys(d2)[i];
      assert Get(d1, k) == Some(d1[i].1) && Get(d2, k) == Some(d2[i].1);
    }
  }
}

=== FILE: errors.dfy ===
/** The exceptions the address pipeline can raise, as a closed set of variants. */
module Errors {

  datatype Error =
      /** A field named by the address map is absent from the record (newer revision). */
    | AddressTranslationError
      /** No address data could be taken from the record. */
    | NoAddressDataFoundError
      /** The address keys are not all values of the address map (older revision). */
    | AddressTranslationNotFoundError
      /** A role needed by the structured lookup is absent from the standardized address. */
    | InvalidAddressMappingError(key: string)
      /** A plain dictionary lookup on a missing key. */
    | KeyError(key: string)
      /** `.upper()` called on a value that is not a string (older revision). */
    | AttributeError
      /** `candidates[0]` on an empty candidate list (older revision). */
    | IndexError
      /** `str.join` over a value that is not a string. */
    | TypeError
}

=== FILE: geocoder.dfy ===
/**
 * The geocoding gateway of the newer revision: the structured street lookup,
 * the free-text extraction fallback and the order in which they run. The two
 * external services are parameters; every operation returns, beside its
 * response, the list of service calls it made.
 */
module Geocoder {
  import opened Wrappers
  import opened Dicts
  import opened Errors
  import Text

  /** A standardized address: role name to value, None for an unset role. */
  type StdAddress = Dict<string, Option<string>>

  /** Python truthiness of a `str`-or-None value. */
  predicate Truthy(v: Option<string>) {
    v.Some? && v.value != ""
  }

  /** A geocoding response: None, the empty dict `{}`, or `{'lat': .., 'lng': ..}`. */
  datatype Response = Null | Empty | LatLng(lat: real, lng: real) {
    /** Python truthiness: only a non-empty dict is true. */
    predicate IsTruthy() {
      LatLng?
    }

    /** `type(response) == dict` */
    predicate IsDict() {
      !Null?
    }
  }

  datatype Candidate = Candidate(latitude: real, longitude: real)

  /** One address found in free text, with its (possibly empty) candidate list. */
  datatype AddressGroup = AddressGroup(candidates: seq<Candidate>)

  /** A US Street API lookup request. */
  datatype StreetLookup = StreetLookup(
    street: Option<string>, street2: Option<string>, secondary: Option<string>,
    city: Option<string>, state: Option<string>, zipcode: Option<string>,
    maxCandidates: nat, matchStrategy: string)

  /** A request sent to one of the two external services. */
  datatype Call = StreetCall(lookup: StreetLookup) | ExtractCall(text: string)

  /** The external services: the US Street API and the US Extract API. */
  datatype Services = Services(
    street: StreetLookup -> seq<Candidate>,
    extract: string -> seq<AddressGroup>)

  datatype Geocoded = Geocoded(response: Response, calls: seq<Call>)

  /** The roles a street lookup reads, in the order it reads them. */
  const Roles: seq<string> := ["street", "street2", "secondary", "city", "state", "zipcode"]

  /** The first role in `roles` that is not a key of `a`. */
  function FirstMissing(a: StdAddress, roles: seq<string>): (r: Option<string>)
    ensures r.None? <==> forall i | 0 <= i < |roles| :: roles[i] in Keys(a)
    ensures r.Some? ==> exists i | 0 <= i < |roles| ::
      roles[i] == r.value && r.value !in Keys(a) &&
      forall j | 0 <= j < i :: roles[j] in Keys(a)
  {
    if |roles| == 0 then None
    else if roles[0] !in Keys(a) then Some(roles[0])
    else
      var r := FirstMissing(a, roles[1..]);
      assert forall i | 1 <= i < |roles| :: roles[i] == roles[1..][i - 1];
      if r.Some? then
        var i :| 0 <= i < |roles[1..]| && roles[1..][i] == r.value && r.value !in Keys(a) &&
          forall j | 0 <= j < i :: roles[1..][j] in Keys(a);
        assert roles[i + 1] == r.value;
        r
      else r
  }

  /** The first candidate's coordinates (`first_candidate_data`). */
  function FirstCandidateData(cs: seq<Candidate>): Response
    requires |cs| > 0
  {
    LatLng(cs[0].latitude, cs[0].longitude)
  }

  /**
   * `us_street_lookup`: a lookup holding the six role values, asking for one
   * candidate under the most permissive match strategy; a missing role raises
   * `InvalidAddressMappingError`.
   */
  function UsStreetLookup(a: StdAddress): (r: Result<StreetLookup, Error>)
    ensures r.Success? <==> forall role | role in Roles :: role in Keys(a)
    ensures r.Failure? ==> r.error == InvalidAddressMappingError(FirstMissing(a, Roles).value)
    ensures r.Success? ==>
      && Get(a, "street") == Some(r.value.street)
      && Get(a, "street2") == Some(r.value.street2)
      && Get(a, "secondary") == Some(r.value.secondary)
      && Get(a, "city") == Some(r.value.city)
      && Get(a, "state") == Some(r.value.state)
      && Get(a, "zipcode") == Some(r.value.zipcode)
      && r.value.maxCandidates == 1
      && r.value.matchStrategy == "Invalid"
  {
    match FirstMissing(a, Roles)
    case Some(role) => Failure(InvalidAddressMappingError(role))
    case None =>
      assert Roles[0] in Keys(a) && Roles[1] in Keys(a) && Roles[2] in Keys(a);
      assert Roles[3] in Keys(a) && Roles[4] in Keys(a) && Roles[5] in Keys(a);
      Success(StreetLookup(
        Get(a, "street").value, Get(a, "street2").value, Get(a, "secondary").value,
        Get(a, "city").value, Get(a, "state").value, Get(a, "zipcode").value,
        1, "Invalid"))
  }

  /**
   * `lookup_address`: None without a street (and no call), `{}` when the
   * service finds no candidate, else the first candidate's coordinates.
   */
  function LookupAddress(a: StdAddress, svc: Services): (r: Result<Geocoded, Error>)
    ensures r.Success? <==> UsStreetLookup(a).Success?
    ensures r.Failure? ==> r == Failure(UsStreetLookup(a).error)
    ensures r.Success? ==>
      var lookup := UsStreetLookup(a).value;
      if !Truthy(lookup.street) then r.value == Geocoded(Null, [])
      else
        && r.value.calls == [StreetCall(lookup)]
        && (|svc.street(lookup)| == 0 ==> r.value.response == Empty)
        && (|svc.street(lookup)| > 0 ==>
              r.value.response == LatLng(svc.street(lookup)[0].latitude, svc.street(lookup)[0].longitude))
  {
    var lookup :- UsStreetLookup(a);
    if !Truthy(lookup.street) then Success(Geocoded(Null, []))
    else
      var result := svc.street(lookup);
      if |result| == 0 then Success(Geocoded(Empty, [StreetCall(lookup)]))
      else Success(Geocoded(FirstCandidateData(result), [StreetCall(lookup)]))
  }

  /** `[str(val) for val in address.values() if val]` */
  function TruthyValues(a: StdAddress): (vs: seq<string>)
    ensures forall s :: s in vs <==> s != "" && exists i | 0 <= i < |a| :: a[i].1 == Some(s)
    ensures |vs| <= |a|
    ensures |a| == 1 ==> vs == (if Truthy(a[0].1) then [a[0].1.value] else [])
  {
    if |a| == 0 then []
    else
      var rest := TruthyValues(a[1..]);
      assert forall i | 1 <= i < |a| :: a[i] == a[1..][i - 1];
      if Truthy(a[0].1) then [a[0].1.value] + rest else rest
  }

  /** The values are taken entry by entry, so they keep the order of the address. */
  lemma {:induction false} TruthyValuesAppend(a: StdAddress, b: StdAddress)
    ensures TruthyValues(a + b) == TruthyValues(a) + TruthyValues(b)
  {
    if |a| == 0 {
      assert a + b == b;
    } else {
      assert (a + b)[1..] == a[1..] + b;
      TruthyValuesAppend(a[1..], b);
    }
  }

  /** The free text sent to the extract service: the truthy values joined with ", ", in order. */
  function ExtractText(a: StdAddress): string {
    Text.Join(", ", TruthyValues(a))
  }

  /** The position of the first group that has a candidate. */
  function FirstWithCandidates(groups: seq<AddressGroup>): (r: Option<nat>)
    ensures r.Some? ==>
      && r.value < |groups|
      && |groups[r.value].candidates| > 0
      && forall j | 0 <= j < r.value :: |groups[j].candidates| == 0
    ensures r.None? ==> forall j | 0 <= j < |groups| :: |groups[j].candidates| == 0
  {
    if |groups| == 0 then None
    else if |groups[0].candidates| > 0 then Some(0)
    else
      match FirstWithCandidates(groups[1..])
      case None => None
      case Some(i) => Some(i + 1)
  }

  /**
   * `extract_address`: one call to the extract service with the address text;
   * the first candidate of the first group that has candidates, else `{}`.
   */
  function ExtractAddress(a: StdAddress, svc: Services): (r: Geocoded)
    ensures r.calls == [ExtractCall(ExtractText(a))]
    ensures r.response.IsDict()
    ensures var groups := svc.extract(ExtractText(a));
      && (r.response == Empty <==> forall j | 0 <= j < |groups| :: |groups[j].candidates| == 0)
      && (r.response.LatLng? ==> exists i | 0 <= i < |groups| ::
            && |groups[i].candidates| > 0
            && (forall j | 0 <= j < i :: |groups[j].candidates| == 0)
            && r.response == LatLng(groups[i].candidates[0].latitude, groups[i].candidates[0].longitude))
  {
    var text := ExtractText(a);
    var groups := svc.extract(text);
    match FirstWithCandidates(groups)
    case None => Geocoded(Empty, [ExtractCall(text)])
    case Some(i) => Geocoded(FirstCandidateData(groups[i].candidates), [ExtractCall(text)])
  }

  /**
   * `geocode_uncached_address`: a dict from the cache (even `{}`) is returned
   * with no call; otherwise the structured lookup runs, and the extract
   * fallback runs exactly when its response is falsy.
   */
  function GeocodeUncachedAddress(cached: Response, a: StdAddress, svc: Services): (r: Result<Geocoded, Error>)
    ensures cached.IsDict() ==> r == Success(Geocoded(cached, []))
    ensures !cached.IsDict() ==> (r.Success? <==> UsStreetLookup(a).Success?)
    ensures r.Failure? ==> r.error == UsStreetLookup(a).error
    ensures r.Success? ==> r.value.response.IsDict()
    ensures !cached.IsDict() && r.Success? ==>
      var first := LookupAddress(a, svc).value;
      if first.response.IsTruthy() then r.value == first
      else r.value == Geocoded(ExtractAddress(a, svc).response, first.calls + [ExtractCall(ExtractText(a))])
  {
    if cached.IsDict() then Success(Geocoded(cached, []))
    else
      var first :- LookupAddress(a, svc);
      if first.response.IsTruthy() then Success(first)
      else
        var fallback := ExtractAddress(a, svc);
        Success(Geocoded(fallback.response, first.calls + fallback.calls))
  }
}

=== FILE: json_key.dfy ===
/**
 * Cache keys: `json.dumps` of a standardized address, a dictionary from role
 * names to a string or None. The newer revision passes `sort_keys=True`, the
 * older one does not.
 */
module JsonKey {
  import opened Wrappers
  import opened Dicts

  type Entries = Dict<string, Option<string>>

  // ---------------------------------------------------------------------------
  // Python's ordering of `str` values: lexicographic by code point.

  predicate Less(a: string, b: string) {
    if |a| == 0 then |b| > 0
    else if |b| == 0 then false
    else a[0] < b[0] || (a[0] == b[0] && Less(a[1..], b[1..]))
  }

  lemma {:induction false} LessIrreflexive(a: string)
    ensures !Less(a, a)
  {
    if |a| > 0 {
      LessIrreflexive(a[1..]);
    }
  }

  lemma {:induction false} LessTransitive(a: string, b: string, c: string)
    requires Less(a, b) && Less(b, c)
    ensures Less(a, c)
  {
    if |a| > 0 && |b| > 0 && |c| > 0 && a[0] == b[0] && b[0] == c[0] {
      LessTransitive(a[1..], b[1..], c[1..]);
    }
  }

  lemma {:induction false} LessTotal(a: string, b: string)
    requires a != b
    ensures Less(a, b) || Less(b, a)
  {
    if |a| > 0 && |b| > 0 && a[0] == b[0] {
      assert a == [a[0]] + a[1..] && b == [b[0]] + b[1..];
      LessTotal(a[1..], b[1..]);
    }
  }

  // ---------------------------------------------------------------------------
  // `sort_keys=True`: entries ordered by key.

  predicate SortedByKey(s: Entries) {
    forall i, j | 0 <= i < j < |s| :: Less(s[i].0, s[j].0)
  }

  function Insert(e: (string, Option<string>), s: Entries): (r: Entries)
    requires SortedByKey(s)
    requires forall x | x in s :: x.0 != e.0
    ensures SortedByKey(r)
    ensures multiset(r) == multiset(s) + multiset{e}
  {
    if |s| == 0 then [e]
    else if Less(e.0, s[0].0) then
      InsertInFront(e, s);
      [e] + s
    else
      LessTotal(e.0, s[0].0);
      var rest := Insert(e, s[1..]);
      assert s == [s[0]] + s[1..];
      InsertBehind(e, s, rest);
      [s[0]] + rest
  }

  /** An entry whose key precedes the first key goes in front. */
  lemma InsertInFront(e: (string, Option<string>), s: Entries)
    requires |s| > 0 && SortedByKey(s) && Less(e.0, s[0].0)
    ensures SortedByKey([e] + s)
  {
    var r := [e] + s;
    forall i, j | 0 <= i < j < |r| ensures Less(r[i].0, r[j].0) {
      if i == 0 {
        if j > 1 { LessTransitive(e.0, s[0].0, s[j - 1].0); }
      } else {
        assert r[i] == s[i - 1] && r[j] == s[j - 1];
      }
    }
  }

  /** The first entry stays in front when `e` goes after it: it precedes `e` and the rest of `s`. */
  lemma InsertBehind(e: (string, Option<string>), s: Entries, rest: Entries)
    requires |s| > 0 && SortedByKey(s) && Less(s[0].0, e.0)
    requires SortedByKey(rest) && multiset(rest) == multiset(s[1..]) + multiset{e}
    ensures SortedByKey([s[0]] + rest)
  {
    var r := [s[0]] + rest;
    forall i, j | 0 <= i < j < |r| ensures Less(r[i].0, r[j].0) {
      if i == 0 {
        assert r[j] == rest[j - 1];
        assert r[j] in multiset(rest);
        if r[j] != e {
          assert r[j] in multiset(s[1..]);
          var k :| 0 <= k < |s[1..]| && s[1..][k] == r[j];
          assert s[k + 1] == r[j];
        }
      } else {
        assert r[i] == rest[i - 1] && r[j] == rest[j - 1];
      }
    }
  }

  /** `sorted(d.items())` for a dictionary: the entries in key order. */
  function SortByKey(d: Entries): (r: Entries)
    requires DistinctKeys(d)
    ensures SortedByKey(r)
    ensures multiset(r) == multiset(d)
  {
    if |d| == 0 then []
    else
      DistinctTail(d);
      var rest := SortByKey(d[1..]);
      SortStep(d, rest);
      Insert(d[0], rest)
  }

  /** The first entry of a dictionary can be inserted into the sorted rest. */
  lemma SortStep(d: Entries, rest: Entries)
    requires |d| > 0 && DistinctKeys(d)
    requires multiset(rest) == multiset(d[1..])
    ensures forall x | x in rest :: x.0 != d[0].0
    ensures multiset(d) == multiset(rest) + multiset{d[0]}
  {
    var tail := d[1..];
    DistinctTail(d);
    assert forall i | 0 <= i < |tail| :: tail[i].0 != d[0].0 by {
      assert forall i | 0 <= i < |tail| :: Keys(tail)[i] == tail[i].0;
    }
    NoKeyOfPermutation(d[0].0, tail, rest);
    assert d == [d[0]] + tail;
  }

  /** A key that no entry of `s` has is the key of no entry of a permutation of `s`. */
  lemma NoKeyOfPermutation(k: string, s: Entries, t: Entries)
    requires forall i | 0 <= i < |s| :: s[i].0 != k
    requires multiset(t) == multiset(s)
    ensures forall x | x in t :: x.0 != k
  {
    forall x | x in t ensures x.0 != k {
      assert x in multiset(s);
      var i :| 0 <= i < |s| && s[i] == x;
    }
  }

  lemma HasMember(s: Entries)
    requires |s| > 0
    ensures exists e :: e in s
  {
    assert s[0] in s;
  }

  /** Two key-sorted entry lists holding the same entries are the same list. */
  lemma {:induction false} SortedUnique(a: Entries, b: Entries)
    requires SortedByKey(a) && SortedByKey(b)
    requires forall e :: e in a <==> e in b
    ensures a == b
  {
    if |a| == 0 {
      if |b| > 0 {
        HasMember(b);
        assert false;
      }
    } else {
      assert a[0] in b;
      assert |b| > 0;
      assert b[0] in a;
      if a[0] != b[0] {
        var i :| 0 <= i < |a| && a[i] == b[0];
        var j :| 0 <= j < |b| && b[j] == a[0];
        assert i > 0 && j > 0;
        LessTransitive(a[0].0, b[0].0, a[0].0);
        LessIrreflexive(a[0].0);
      }
      forall e ensures e in a[1..] <==> e in b[1..] {
        if e in a[1..] {
          var i :| 1 <= i < |a| && a[i] == e;
          LessIrreflexive(a[0].0);
          assert e != a[0];
          assert e in b;
        }
        if e in b[1..] {
          var j :| 1 <= j < |b| && b[j] == e;
          LessIrreflexive(b[0].0);
          assert e != b[0];
          assert e in a;
        }
      }
      SortedUnique(a[1..], b[1..]);
      assert a == [a[0]] + a[1..] && b == [b[0]] + b[1..];
    }
  }

  // ---------------------------------------------------------------------------
  // `json.dumps` of an entry list in the order given: `{"k": "v", "k2": null}`.

  function EscapeChar(c: char): string {
    if c == '"' || c == '\\' then ['\\', c] else [c]
  }

  /** The body of a JSON string literal (only the quote and the backslash are escaped). */
  function Escape(s: string): string {
    if |s| == 0 then [] else EscapeChar(s[0]) + Escape(s[1..])
  }

  function Quote(s: string): string {
    "\"" + Escape(s) + "\""
  }

  function ValueText(v: Option<string>): string {
    match v
    case None => "null"
    case Some(s) => Quote(s)
  }

  function Member(e: (string, Option<string>)): string {
    Quote(e.0) + ": " + ValueText(e.1)
  }

  function Members(d: Entries): string {
    if |d| == 0 then ""
    else if |d| == 1 then Member(d[0])
    else Member(d[0]) + (", " + Members(d[1..]))
  }

  function Serialize(d: Entries): string {
    "{" + Members(d) + "}"
  }

  // ---------------------------------------------------------------------------
  // A reader for the text `Serialize` writes, used to show that it loses nothing.

  /** Reads an escaped string body up to its closing quote; returns it and the rest. */
  function ReadString(s: string): (r: Option<(string, string)>)
    ensures r.Some? ==> |r.value.1| < |s|
  {
    if |s| == 0 then None
    else if s[0] == '"' then Some(([], s[1..]))
    else if s[0] == '\\' then
      if |s| < 2 then None
      else match ReadString(s[2..])
        case None => None
        case Some((t, rest)) => Some(([s[1]] + t, rest))
    else match ReadString(s[1..])
      case None => None
      case Some((t, rest)) => Some(([s[0]] + t, rest))
  }

  function ReadQuoted(s: string): (r: Option<(string, string)>)
    ensures r.Some? ==> |r.value.1| < |s|
  {
    if |s| > 0 && s[0] == '"' then ReadString(s[1..]) else None
  }

  function ReadValue(s: string): (r: Option<(Option<string>, string)>)
    ensures r.Some? ==> |r.value.1| < |s|
  {
    if |s| >= 4 && s[..4] == "null" then Some((None, s[4..]))
    else match ReadQuoted(s)
      case None => None
      case Some((t, rest)) => Some((Some(t), rest))
  }

  function ReadMember(s: string): (r: Option<((string, Option<string>), string)>)
    ensures r.Some? ==> |r.value.1| < |s|
  {
    match ReadQuoted(s)
    case None => None
    case Some((k, rest)) =>
      if |rest| >= 2 && rest[..2] == ": " then
        match ReadValue(rest[2..])
        case None => None
        case Some((v, rest')) => Some(((k, v), rest'))
      else None
  }

  /** Reads `member (", " member)* "}"`. */
  function ReadMembers(s: string): (r: Option<(Entries, string)>)
    decreases |s|
  {
    match ReadMember(s)
    case None => None
    case Some((e, rest)) =>
      if |rest| >= 1 && rest[0] == '}' then Some(([e], rest[1..]))
      else if |rest| >= 2 && rest[..2] == ", " then
        match ReadMembers(rest[2..])
        case None => None
        case Some((es, rest')) => Some(([e] + es, rest'))
      else None
  }

  function Deserialize(s: string): Option<Entries> {
    if s == "{}" then Some([])
    else if |s| > 0 && s[0] == '{' then
      match ReadMembers(s[1..])
      case Some((d, rest)) => if rest == [] then Some(d) else None
      case None => None
    else None
  }

  lemma {:induction false} ReadStringEscape(t: string, rest: string)
    ensures ReadString(Escape(t) + "\"" + rest) == Some((t, rest))
  {
    if |t| == 0 {
      assert Escape(t) + "\"" + rest == "\"" + rest;
    } else {
      ReadStringEscape(t[1..], rest);
      assert Escape(t) + "\"" + rest == EscapeChar(t[0]) + (Escape(t[1..]) + "\"" + rest);
      assert [t[0]] + t[1..] == t;
    }
  }

  lemma ReadQuotedQuote(t: string, rest: string)
    ensures ReadQuoted(Quote(t) + rest) == Some((t, rest))
  {
    assert Quote(t) + rest == "\"" + (Escape(t) + "\"" + rest);
    ReadStringEscape(t, rest);
  }

  lemma ReadValueOfValueText(v: Option<string>, rest: string)
    ensures ReadValue(ValueText(v) + rest) == Some((v, rest))
  {
    var s := ValueText(v) + rest;
    match v
    case None =>
      assert s[..4] == "null";
      assert s[4..] == rest;
    case Some(t) =>
      assert s[0] == '"';
      assert |s| < 4 || s[..4] != "null";
      ReadQuotedQuote(t, rest);
  }

  lemma ReadMemberOfMember(e: (string, Option<string>), rest: string)
    ensures ReadMember(Member(e) + rest) == Some((e, rest))
  {
    var tail := ": " + ValueText(e.1) + rest;
    assert Member(e) + rest == Quote(e.0) + tail;
    ReadQuotedQuote(e.0, tail);
    assert tail[..2] == ": ";
    assert tail[2..] == ValueText(e.1) + rest;
    ReadValueOfValueText(e.1, rest);
  }

  lemma AppendAssoc(a: string, b: string, c: string)
    ensures (a + b) + c == a + (b + c)
  {
  }

  lemma {:induction false} ReadMembersOfMembers(d: Entries, rest: string)
    requires |d| > 0
    ensures ReadMembers(Members(d) + ("}" + rest)) == Some((d, rest))
  {
    if |d| == 1 {
      ReadMemberOfMember(d[0], "}" + rest);
      assert [d[0]] == d;
    } else {
      var more := ", " + Members(d[1..]);
      var tail := more + ("}" + rest);
      AppendAssoc(Member(d[0]), more, "}" + rest);
      ReadMemberOfMember(d[0], tail);
      ReadMembersOfMembers(d[1..], rest);
      ReadMembersStep(d[0], d[1..], tail, rest);
      assert Members(d) == Member(d[0]) + more;
      assert Members(d) + ("}" + rest) == Member(d[0]) + tail;
      assert [d[0]] + d[1..] == d;
    }
  }

  lemma ReadMembersStep(e: (string, Option<string>), es: Entries, tail: string, rest: string)
    requires tail == (", " + Members(es)) + ("}" + rest)
    requires ReadMember(Member(e) + tail) == Some((e, tail))
    requires ReadMembers(Members(es) + ("}" + rest)) == Some((es, rest))
    ensures ReadMembers(Member(e) + tail) == Some(([e] + es, rest))
  {
    AppendAssoc(", ", Members(es), "}" + rest);
    assert tail[0] == ',';
    assert tail[..2] == ", ";
    assert tail[2..] == Members(es) + ("}" + rest);
  }

  /** A non-empty entry list serializes to a brace, its members and a closing brace. */
  lemma SerializeShape(d: Entries)
    requires |d| > 0
    ensures var s := Serialize(d);
      s != "{}" && |s| > 0 && s[0] == '{' && s[1..] == Members(d) + ("}" + "")
  {
    var s := Serialize(d);
    assert Members(d) == Member(d[0]) + (if |d| == 1 then "" else ", " + Members(d[1..]));
    assert Member(d[0])[0] == '"';
    assert s == "{" + (Members(d) + "}");
    assert s[1] == '"';
  }

  /** Reading back a serialized entry list yields it unchanged. */
  lemma {:induction false} DeserializeSerialize(d: Entries)
    ensures Deserialize(Serialize(d)) == Some(d)
  {
    if |d| > 0 {
      SerializeShape(d);
      ReadMembersOfMembers(d, "");
    }
  }

  /** Distinct entry lists serialize to distinct texts. */
  lemma SerializeInjective(a: Entries, b: Entries)
    requires Serialize(a) == Serialize(b)
    ensures a == b
  {
    DeserializeSerialize(a);
    DeserializeSerialize(b);
  }

  // ---------------------------------------------------------------------------
  // The two cache-key functions.

  /** `json.dumps(address, sort_keys=True)` (newer revision). */
  function SortedKey(d: Entries): string
    requires DistinctKeys(d)
  {
    Serialize(SortByKey(d))
  }

  /** `json.dumps(address)` (older revision): entries in insertion order. */
  function InsertionKey(d: Entries): string {
    Serialize(d)
  }

  /**
   * Two dictionaries get the same sorted key exactly when they hold the same
   * entries, whatever order the entries were inserted in.
   */
  lemma SortedKeyIff(a: Entries, b: Entries)
    requires DistinctKeys(a) && DistinctKeys(b)
    ensures SortedKey(a) == SortedKey(b) <==> forall e :: e in a <==> e in b
  {
    var sa, sb := SortByKey(a), SortByKey(b);
    assert forall e :: e in sa <==> e in a by {
      forall e ensures e in sa <==> e in a {
        assert e in sa <==> e in multiset(sa);
        assert e in a <==> e in multiset(a);
      }
    }
    assert forall e :: e in sb <==> e in b by {
      forall e ensures e in sb <==> e in b {
        assert e in sb <==> e in multiset(sb);
        assert e in b <==> e in multiset(b);
      }
    }
    if SortedKey(a) == SortedKey(b) {
      SerializeInjective(sa, sb);
    }
    if forall e :: e in a <==> e in b {
      SortedUnique(sa, sb);
    }
  }

  /** The insertion-order key tells apart two dictionaries that differ only in order. */
  lemma InsertionKeyIff(a: Entries, b: Entries)
    ensures InsertionKey(a) == InsertionKey(b) <==> a == b
  {
    if InsertionKey(a) == InsertionKey(b) {
      SerializeInjective(a, b);
    }
  }

  /** A concrete pair: same entries, inserted in opposite orders. */
  lemma InsertionOrderMatters()
    ensures var a: Entries := [("city", Some("SEATTLE")), ("street", None)];
            var b: Entries := [("street", None), ("city", Some("SEATTLE"))];
            SortedKey(a) == SortedKey(b) && InsertionKey(a) != InsertionKey(b)
  {
    var a: Entries := [("city", Some("SEATTLE")), ("street", None)];
    var b: Entries := [("street", None), ("city", Some("SEATTLE"))];
    SortedKeyIff(a, b);
    InsertionKeyIff(a, b);
  }
}

=== FILE: legacy.dfy ===
/**
 * The older revision of the pipeline: its own `standardize_address` (a subset
 * check, then a fixed six-role address), its lookup and extract variants,
 * its cache check on the unsorted JSON key and the per-record body of its
 * `process_json`, which caches only truthy responses.
 */
module Legacy {
  import opened Wrappers
  import opened Dicts
  import opened Errors
  import opened Records
  import Text
  import JsonKey
  import ResultCache
  import Geocoder
  import Boundary
  import Address
  import Pipeline

  type Cache = ResultCache.Cache<Geocoder.Response>

  // ---------------------------------------------------------------------------
  // standardize_address

  /** `set(address.keys()).issubset(api_map.values())` */
  predicate KeysMapped(address: Record, m: Address.AddressMap) {
    forall k | k in Keys(address) :: Some(k) in Values(m)
  }

  /** Every value is a `str`, so `.upper()` exists. */
  predicate AllStrings(address: Record) {
    forall i | 0 <= i < |address| :: address[i].1.JStr?
  }

  /** `address[key].upper().strip()` for every key, on an all-string address. */
  function NormalizeStrings(address: Record): (n: Dict<string, string>)
    requires AllStrings(address)
    ensures Keys(n) == Keys(address)
    ensures forall i | 0 <= i < |address| :: n[i].1 == Text.Normalize(address[i].1.s)
  {
    seq(|address|, i requires 0 <= i < |address| => (address[i].0, Text.Normalize(address[i].1.s)))
  }

  /** `api_map[role] and address[api_map[role]]` on the normalized address. */
  function RoleEntry(n: Dict<string, string>, m: Address.AddressMap, role: string): (r: Result<Option<string>, Error>)
    ensures r.Failure? <==>
      role !in Keys(m) || (Geocoder.Truthy(Get(m, role).value) && Get(m, role).value.value !in Keys(n))
    ensures r.Failure? && role !in Keys(m) ==> r.error == KeyError(role)
    ensures r.Failure? && role in Keys(m) ==> r.error == KeyError(Get(m, role).value.value)
    ensures r.Success? && !Geocoder.Truthy(Get(m, role).value) ==> r.value == Get(m, role).value
    ensures r.Success? && Geocoder.Truthy(Get(m, role).value) ==> r.value == Get(n, Get(m, role).value.value)
  {
    match Get(m, role)
    case None => Failure(KeyError(role))
    case Some(field) =>
      if !Geocoder.Truthy(field) then Success(field)
      else
        match Get(n, field.value)
        case None => Failure(KeyError(field.value))
        case Some(s) => Success(Some(s))
  }

  /** The dict literal of the six roles, evaluated in order: the first failing role raises. */
  function RoleEntries(n: Dict<string, string>, m: Address.AddressMap, roles: seq<string>): (r: Result<Geocoder.StdAddress, Error>)
    ensures r.Success? <==> forall i | 0 <= i < |roles| :: RoleEntry(n, m, roles[i]).Success?
    ensures r.Success? ==> Keys(r.value) == roles
    ensures r.Success? ==> forall i | 0 <= i < |roles| :: r.value[i].1 == RoleEntry(n, m, roles[i]).value
    ensures r.Failure? ==> exists i | 0 <= i < |roles| ::
      && RoleEntry(n, m, roles[i]).Failure?
      && r.error == RoleEntry(n, m, roles[i]).error
      && forall j | 0 <= j < i :: RoleEntry(n, m, roles[j]).Success?
  {
    if |roles| == 0 then Success([])
    else
      var head := RoleEntry(n, m, roles[0]);
      var tail := RoleEntries(n, m, roles[1..]);
      if head.Failure? then Failure(head.error)
      else if tail.Failure? then
        LaterFailure(n, m, roles, tail.error);
        Failure(tail.error)
      else
        var r := [(roles[0], head.value)] + tail.value;
        KeysCons((roles[0], head.value), tail.value);
        assert forall i | 1 <= i < |roles| :: roles[i] == roles[1..][i - 1] && r[i] == tail.value[i - 1];
        Success(r)
  }

  /** A role after the first that fails first among the rest fails first among all, the first role succeeding. */
  lemma LaterFailure(n: Dict<string, string>, m: Address.AddressMap, roles: seq<string>, e: Error)
    requires |roles| > 0 && RoleEntry(n, m, roles[0]).Success?
    requires exists i | 0 <= i < |roles[1..]| ::
      && RoleEntry(n, m, roles[1..][i]).Failure?
      && e == RoleEntry(n, m, roles[1..][i]).error
      && forall j | 0 <= j < i :: RoleEntry(n, m, roles[1..][j]).Success?
    ensures exists i | 0 <= i < |roles| ::
      && RoleEntry(n, m, roles[i]).Failure?
      && e == RoleEntry(n, m, roles[i]).error
      && forall j | 0 <= j < i :: RoleEntry(n, m, roles[j]).Success?
  {
    var i :| 0 <= i < |roles[1..]| && RoleEntry(n, m, roles[1..][i]).Failure?
      && e == RoleEntry(n, m, roles[1..][i]).error
      && forall j | 0 <= j < i :: RoleEntry(n, m, roles[1..][j]).Success?;
    assert roles[i + 1] == roles[1..][i];
    forall j | 0 <= j < i + 1 ensures RoleEntry(n, m, roles[j]).Success? {
      if j > 0 { assert roles[j] == roles[1..][j - 1]; }
    }
  }


  /** What the older `standardize_address` gives a role, when it does not raise. */
  function LegacyRoleValue(address: Record, m: Address.AddressMap, role: string): Option<string>
    requires role in Keys(m)
    requires Geocoder.Truthy(Get(m, role).value) ==> Get(m, role).value.value in Keys(address)
    requires AllStrings(address)
  {
    var field := Get(m, role).value;
    if !Geocoder.Truthy(field) then field
    else Some(Text.Normalize(Get(address, field.value).value.s))
  }

  /** Every role is in the map and every set role's field is in the address. */
  predicate RolesResolvable(address: Record, m: Address.AddressMap) {
    forall role | role in Geocoder.Roles ::
      role in Keys(m) && (Geocoder.Truthy(Get(m, role).value) ==> Get(m, role).value.value in Keys(address))
  }

  /**
   * The older `standardize_address`: keys outside the map's values raise
   * `AddressTranslationNotFoundError`; a non-string value raises
   * AttributeError; then the six roles are read in order, a role missing from
   * the map or a set role's field missing from the address raising KeyError.
   */
  function LegacyStandardizeAddress(address: Record, m: Address.AddressMap): (r: Result<Geocoder.StdAddress, Error>)
    ensures r == Failure(AddressTranslationNotFoundError) <==> !KeysMapped(address, m)
    ensures r == Failure(AttributeError) <==> KeysMapped(address, m) && !AllStrings(address)
    ensures r.Failure? && KeysMapped(address, m) && AllStrings(address) ==> r.error.KeyError?
    ensures r.Success? <==> KeysMapped(address, m) && AllStrings(address) && RolesResolvable(address, m)
    ensures r.Success? ==> Keys(r.value) == Geocoder.Roles
    ensures r.Success? ==> forall i | 0 <= i < |Geocoder.Roles| ::
      r.value[i].1 == LegacyRoleValue(address, m, Geocoder.Roles[i])
  {
    if !KeysMapped(address, m) then Failure(AddressTranslationNotFoundError)
    else if !AllStrings(address) then Failure(AttributeError)
    else
      var n := NormalizeStrings(address);
      var r := RoleEntries(n, m, Geocoder.Roles);
      LegacyEntriesMeaning(address, m);
      r
  }

  lemma LegacyEntriesMeaning(address: Record, m: Address.AddressMap)
    requires AllStrings(address)
    ensures var n := NormalizeStrings(address);
      && ((forall i | 0 <= i < |Geocoder.Roles| :: RoleEntry(n, m, Geocoder.Roles[i]).Success?)
          <==> RolesResolvable(address, m))
      && (RolesResolvable(address, m) ==> forall i | 0 <= i < |Geocoder.Roles| ::
            RoleEntry(n, m, Geocoder.Roles[i]).value == LegacyRoleValue(address, m, Geocoder.Roles[i]))
      && forall i | 0 <= i < |Geocoder.Roles| && RoleEntry(n, m, Geocoder.Roles[i]).Failure? ::
           RoleEntry(n, m, Geocoder.Roles[i]).error.KeyError?
  {
    var n := NormalizeStrings(address);
    forall f | f in Keys(address) ensures Get(n, f) == Some(Text.Normalize(Get(address, f).value.s)) {
      var j := FirstIndex(Keys(address), f);
      assert Keys(n)[j] == f;
    }
  }

  // ---------------------------------------------------------------------------
  // Geocoding

  /**
   * The older `lookup_address`: None without a street (no call), None again
   * when the service finds no candidate, else the first candidate. Reading a
   * role the address lacks raises KeyError.
   */
  function LegacyLookupAddress(a: Geocoder.StdAddress, svc: Geocoder.Services): (r: Result<Geocoder.Geocoded, Error>)
    ensures r.Success? <==> forall role | role in Geocoder.Roles :: role in Keys(a)
    ensures r.Failure? ==> r.error.KeyError?
    ensures r.Success? ==>
      var lookup := Geocoder.UsStreetLookup(a).value;
      if !Geocoder.Truthy(lookup.street) then r.value == Geocoder.Geocoded(Geocoder.Null, [])
      else
        && r.value.calls == [Geocoder.StreetCall(lookup)]
        && (|svc.street(lookup)| == 0 ==> r.value.response == Geocoder.Null)
        && (|svc.street(lookup)| > 0 ==>
              r.value.response == Geocoder.LatLng(svc.street(lookup)[0].latitude, svc.street(lookup)[0].longitude))
  {
    match Geocoder.UsStreetLookup(a)
    case Failure(_) => Failure(KeyError(Geocoder.FirstMissing(a, Geocoder.Roles).value))
    case Success(lookup) =>
      if !Geocoder.Truthy(lookup.street) then Success(Geocoder.Geocoded(Geocoder.Null, []))
      else
        var result := svc.street(lookup);
        if |result| == 0 then Success(Geocoder.Geocoded(Geocoder.Null, [Geocoder.StreetCall(lookup)]))
        else Success(Geocoder.Geocoded(Geocoder.FirstCandidateData(result), [Geocoder.StreetCall(lookup)]))
  }

  /**
   * The older `extract_address`: the loop returns on its first iteration, so
   * only the first address group is looked at. No group gives None; a first
   * group without candidates raises IndexError.
   */
  function LegacyExtractAddress(a: Geocoder.StdAddress, svc: Geocoder.Services): (r: Result<Geocoder.Geocoded, Error>)
    ensures var groups := svc.extract(Geocoder.ExtractText(a));
      && (r.Failure? <==> |groups| > 0 && |groups[0].candidates| == 0)
      && (r.Failure? ==> r.error == IndexError)
      && (r.Success? ==> r.value.calls == [Geocoder.ExtractCall(Geocoder.ExtractText(a))])
      && (r.Success? && |groups| == 0 ==> r.value.response == Geocoder.Null)
      && (r.Success? && |groups| > 0 ==>
            r.value.response == Geocoder.LatLng(groups[0].candidates[0].latitude, groups[0].candidates[0].longitude))
  {
    var text := Geocoder.ExtractText(a);
    var groups := svc.extract(text);
    if |groups| == 0 then Success(Geocoder.Geocoded(Geocoder.Null, [Geocoder.ExtractCall(text)]))
    else if |groups[0].candidates| == 0 then Failure(IndexError)
    else Success(Geocoder.Geocoded(Geocoder.FirstCandidateData(groups[0].candidates), [Geocoder.ExtractCall(text)]))
  }

  /** The older `check_cache`: the value stored under `json.dumps(address)`, else None. */
  function LegacyCheckCache(c: Cache, a: Geocoder.StdAddress, now: int): (r: Geocoder.Response)
    ensures ResultCache.Read(c, JsonKey.InsertionKey(a), now).Some? ==>
      r == ResultCache.Read(c, JsonKey.InsertionKey(a), now).value
    ensures ResultCache.Read(c, JsonKey.InsertionKey(a), now).None? ==> r == Geocoder.Null
  {
    match ResultCache.Read(c, JsonKey.InsertionKey(a), now)
    case None => Geocoder.Null
    case Some(v) => v
  }

  /** Every value in the cache is truthy: the older revision never stores a negative result. */
  ghost predicate HoldsTruthy(c: Cache) {
    forall key | key in c.entries :: c.entries[key].value.IsTruthy()
  }

  // ---------------------------------------------------------------------------
  // The per-record body of the older `process_json`

  /** `{key: record[key] for key in record if key in address_map.values()}` */
  function AddressOf(record: Record, m: Address.AddressMap): (a: Record)
    ensures forall e :: e in a <==> e in record && Some(e.0) in Values(m)
    ensures forall k :: k in Keys(a) <==> k in Keys(record) && Some(k) in Values(m)
    ensures DistinctKeys(record) ==> DistinctKeys(a)
  {
    Where(record, k => Some(k) in Values(m))
  }

  datatype Outcome = Outcome(
    result: Result<Record, Error>,
    cache: Cache,
    response: Geocoder.Response,
    calls: seq<Geocoder.Call>)

  /** The tract, computed only when the response has a non-zero latitude and longitude. */
  function LegacyTract<S>(response: Geocoder.Response, tracts: seq<Boundary.Tract<S>>, contains: (S, Boundary.Point) -> bool): (r: Option<string>)
    ensures !(response.LatLng? && response.lat != 0.0 && response.lng != 0.0) ==> r.None?
    ensures response.LatLng? && response.lat != 0.0 && response.lng != 0.0 ==>
      r == Boundary.LatLngToPolygon(response.lat, response.lng, tracts, contains)
  {
    if response.IsTruthy() && response.lat != 0.0 && response.lng != 0.0 then
      Boundary.LatLngToPolygon(response.lat, response.lng, tracts, contains)
    else None
  }

  /** The geocoding part: the cache, then the lookup if falsy, then the extract if still falsy. */
  function LegacyGeocode(c: Cache, std: Geocoder.StdAddress, now: int, svc: Geocoder.Services): (r: Result<Geocoder.Geocoded, Error>)
    ensures LegacyCheckCache(c, std, now).IsTruthy() ==>
      r == Success(Geocoder.Geocoded(LegacyCheckCache(c, std, now), []))
    ensures !LegacyCheckCache(c, std, now).IsTruthy() && r.Success? ==>
      && LegacyLookupAddress(std, svc).Success?
      && |r.value.calls| > 0
      && (LegacyLookupAddress(std, svc).value.response.IsTruthy() ==> r.value == LegacyLookupAddress(std, svc).value)
    ensures !LegacyCheckCache(c, std, now).IsTruthy() ==>
      (r.Failure? <==>
        || LegacyLookupAddress(std, svc).Failure?
        || (!LegacyLookupAddress(std, svc).value.response.IsTruthy() && LegacyExtractAddress(std, svc).Failure?))
    ensures r.Failure? && LegacyLookupAddress(std, svc).Failure? ==> r.error == LegacyLookupAddress(std, svc).error
    ensures r.Failure? && LegacyLookupAddress(std, svc).Success? ==>
      LegacyExtractAddress(std, svc).Failure? && r.error == LegacyExtractAddress(std, svc).error
    ensures !LegacyCheckCache(c, std, now).IsTruthy() && LegacyLookupAddress(std, svc).Success? &&
            !LegacyLookupAddress(std, svc).value.response.IsTruthy() && LegacyExtractAddress(std, svc).Success? ==>
      r == Success(Geocoder.Geocoded(
        LegacyExtractAddress(std, svc).value.response,
        LegacyLookupAddress(std, svc).value.calls + LegacyExtractAddress(std, svc).value.calls))
  {
    var cached := LegacyCheckCache(c, std, now);
    if cached.IsTruthy() then Success(Geocoder.Geocoded(cached, []))
    else
      var first :- LegacyLookupAddress(std, svc);
      if first.response.IsTruthy() then
        assert |first.calls| > 0;
        Success(first)
      else
        var second :- LegacyExtractAddress(std, svc);
        Success(Geocoder.Geocoded(second.response, first.calls + second.calls))
  }

  /**
   * One iteration of the older `process_json` loop. A record with no mapped
   * field raises `NoAddressDataFoundError`; the response is cached under the
   * insertion-order key only when truthy; the output drops exactly the
   * address fields and adds `census_tract`.
   */
  function LegacyProcessRecord<S>(
    record: Record, m: Address.AddressMap, tracts: seq<Boundary.Tract<S>>,
    contains: (S, Boundary.Point) -> bool, c: Cache, now: int, svc: Geocoder.Services): (r: Outcome)
    requires DistinctKeys(record)
    ensures |AddressOf(record, m)| == 0 ==> r == Outcome(Failure(NoAddressDataFoundError), c, Geocoder.Null, [])
    ensures r.result.Failure? ==> r.cache == c
    ensures !r.response.IsTruthy() ==> r.cache == c
    ensures r.response.IsTruthy() ==>
      && LegacyStandardizeAddress(AddressOf(record, m), m).Success?
      && forall t | now <= t < now + c.ttl ::
           ResultCache.Read(r.cache, JsonKey.InsertionKey(LegacyStandardizeAddress(AddressOf(record, m), m).value), t)
             == Some(r.response)
    ensures HoldsTruthy(c) ==> HoldsTruthy(r.cache)
    ensures r.result.Success? ==>
      forall k :: k in Keys(r.result.value) <==>
        k == "census_tract" || (k in Keys(record) && Some(k) !in Values(m))
    ensures r.result.Success? ==>
      Get(r.result.value, "census_tract") == Some(Pipeline.TractValue(LegacyTract(r.response, tracts, contains)))
    ensures r.result.Success? ==> DistinctKeys(r.result.value)
    ensures r.result.Success? ==>
      forall k | k != "census_tract" && k in Keys(r.result.value) :: Get(r.result.value, k) == Get(record, k)
    ensures |AddressOf(record, m)| > 0 && LegacyStandardizeAddress(AddressOf(record, m), m).Failure? ==>
      r == Outcome(Failure(LegacyStandardizeAddress(AddressOf(record, m), m).error), c, Geocoder.Null, [])
    ensures |AddressOf(record, m)| > 0 && LegacyStandardizeAddress(AddressOf(record, m), m).Success? ==>
      var g := LegacyGeocode(c, LegacyStandardizeAddress(AddressOf(record, m), m).value, now, svc);
      && (g.Failure? ==> r == Outcome(Failure(g.error), c, Geocoder.Null, []))
      && (g.Success? ==> r.result.Success? && r.response == g.value.response && r.calls == g.value.calls)
  {
    var address := AddressOf(record, m);
    if |address| == 0 then Outcome(Failure(NoAddressDataFoundError), c, Geocoder.Null, [])
    else
      match LegacyStandardizeAddress(address, m)
      case Failure(e) => Outcome(Failure(e), c, Geocoder.Null, [])
      case Success(std) =>
        match LegacyGeocode(c, std, now, svc)
        case Failure(e) => Outcome(Failure(e), c, Geocoder.Null, [])
        case Success(geocoded) =>
          var response := geocoded.response;
          var saved := LegacySaveToCache(c, std, response, now);
          var result := LegacyOutputRecord(record, m, Pipeline.TractValue(LegacyTract(response, tracts, contains)));
          Outcome(Success(result), saved, response, geocoded.calls)
  }

  /** The older `save_to_cache` as the loop uses it: only a truthy response is written, under the insertion-order key. */
  function LegacySaveToCache(c: Cache, std: Geocoder.StdAddress, response: Geocoder.Response, now: int): (r: Cache)
    ensures !response.IsTruthy() ==> r == c
    ensures response.IsTruthy() ==>
      forall t | now <= t < now + c.ttl :: ResultCache.Read(r, JsonKey.InsertionKey(std), t) == Some(response)
    ensures forall key, t | key != JsonKey.InsertionKey(std) :: ResultCache.Read(r, key, t) == ResultCache.Read(c, key, t)
    ensures HoldsTruthy(c) ==> HoldsTruthy(r)
  {
    if response.IsTruthy() then ResultCache.Write(c, JsonKey.InsertionKey(std), response, now) else c
  }

  /** The output record: every address field removed, `census_tract` set. */
  function LegacyOutputRecord(record: Record, m: Address.AddressMap, tract: Value): (r: Record)
    requires DistinctKeys(record)
    ensures DistinctKeys(r)
    ensures forall k :: k in Keys(r) <==> k == "census_tract" || (k in Keys(record) && Some(k) !in Values(m))
    ensures forall k | k != "census_tract" && k in Keys(r) :: Get(r, k) == Get(record, k)
    ensures Get(r, "census_tract") == Some(tract)
  {
    var address := AddressOf(record, m);
    var kept := Where(record, k => k !in Keys(address));
    var r := Put(kept, "census_tract", tract);
    assert forall k | k != "census_tract" && k in Keys(r) :: Get(r, k) == Get(record, k) by {
      forall k | k != "census_tract" && k in Keys(r) ensures Get(r, k) == Get(record, k) {
        assert k in Keys(kept);
        var v := Get(kept, k).value;
        assert (k, v) in record;
      }
    }
    r
  }

  // ---------------------------------------------------------------------------
  // Properties of the older revision

  /**
   * The address is built from the record keys among the map's values, so the
   * subset check of `standardize_address` never fails inside `process_json`.
   */
  lemma AddressAlwaysMapped(record: Record, m: Address.AddressMap)
    ensures KeysMapped(AddressOf(record, m), m)
  {
  }

  /** The normalized strings are read like the address they come from. */
  lemma NormalizeStringsGet(address: Record, f: string)
    requires AllStrings(address)
    ensures Get(NormalizeStrings(address), f) ==
      if f in Keys(address) then Some(Text.Normalize(Get(address, f).value.s)) else None
  {
    if f in Keys(address) {
      var j := FirstIndex(Keys(address), f);
      assert Keys(NormalizeStrings(address))[j] == f;
    }
  }

  lemma RoleEntriesAgree(n1: Dict<string, string>, n2: Dict<string, string>, m: Address.AddressMap, roles: seq<string>)
    requires forall f :: Get(n1, f) == Get(n2, f)
    ensures RoleEntries(n1, m, roles) == RoleEntries(n2, m, roles)
    decreases |roles|
  {
    if |roles| > 0 {
      assert RoleEntry(n1, m, roles[0]) == RoleEntry(n2, m, roles[0]);
      RoleEntriesAgree(n1, n2, m, roles[1..]);
    }
  }

  /**
   * The older standardized address depends only on the address's entries,
   * not on their order, so the unsorted `json.dumps` key is still
   * content-determined: the six roles always come out in the same order.
   */
  lemma LegacyStandardizeIgnoresOrder(a1: Record, a2: Record, m: Address.AddressMap)
    requires DistinctKeys(a1) && DistinctKeys(a2)
    requires forall e :: e in a1 <==> e in a2
    ensures LegacyStandardizeAddress(a1, m) == LegacyStandardizeAddress(a2, m)
    ensures LegacyStandardizeAddress(a1, m).Success? ==>
      JsonKey.InsertionKey(LegacyStandardizeAddress(a1, m).value) == JsonKey.InsertionKey(LegacyStandardizeAddress(a2, m).value)
  {
    assert forall k :: k in Keys(a1) <==> k in Keys(a2) by {
      forall k ensures k in Keys(a1) <==> k in Keys(a2) {
        if k in Keys(a1) { assert (k, Get(a1, k).value) in a2; }
        if k in Keys(a2) { assert (k, Get(a2, k).value) in a1; }
      }
    }
    assert KeysMapped(a1, m) <==> KeysMapped(a2, m);
    assert AllStrings(a1) <==> AllStrings(a2) by {
      if AllStrings(a1) {
        forall i | 0 <= i < |a2| ensures a2[i].1.JStr? {
          assert a2[i] in a1;
        }
      }
      if AllStrings(a2) {
        forall i | 0 <= i < |a1| ensures a1[i].1.JStr? {
          assert a1[i] in a2;
        }
      }
    }
    if KeysMapped(a1, m) && AllStrings(a1) {
      var n1, n2 := NormalizeStrings(a1), NormalizeStrings(a2);
      forall f ensures Get(n1, f) == Get(n2, f) {
        NormalizeStringsGet(a1, f);
        NormalizeStringsGet(a2, f);
        if f in Keys(a1) {
          assert (f, Get(a1, f).value) in a2;
        }
      }
      RoleEntriesAgree(n1, n2, m, Geocoder.Roles);
    }
  }

  /** A truthy cached response is used as is: no service is called. */
  lemma LegacyCacheHitMakesNoCalls<S>(
    record: Record, m: Address.AddressMap, tracts: seq<Boundary.Tract<S>>,
    contains: (S, Boundary.Point) -> bool, c: Cache, now: int, svc: Geocoder.Services)
    requires DistinctKeys(record) && HoldsTruthy(c) && |AddressOf(record, m)| > 0
    requires LegacyStandardizeAddress(AddressOf(record, m), m).Success?
    requires ResultCache.Read(c, JsonKey.InsertionKey(LegacyStandardizeAddress(AddressOf(record, m), m).value), now).Some?
    ensures var r := LegacyProcessRecord(record, m, tracts, contains, c, now, svc);
      && r.result.Success?
      && r.calls == []
      && r.response == ResultCache.Read(c, JsonKey.InsertionKey(LegacyStandardizeAddress(AddressOf(record, m), m).value), now).value
  {
  }

  /**
   * A negative result is not cached, so the same record processed again
   * repeats exactly the same service calls.
   */
  lemma LegacyNegativeRepeats<S>(
    record: Record, m: Address.AddressMap, tracts: seq<Boundary.Tract<S>>,
    contains: (S, Boundary.Point) -> bool, c: Cache, now: int, svc: Geocoder.Services)
    requires DistinctKeys(record)
    requires !LegacyProcessRecord(record, m, tracts, contains, c, now, svc).response.IsTruthy()
    ensures var r1 := LegacyProcessRecord(record, m, tracts, contains, c, now, svc);
            var r2 := LegacyProcessRecord(record, m, tracts, contains, r1.cache, now, svc);
      r2 == r1
  {
  }

  // ---------------------------------------------------------------------------
  // Where the older revision misbehaves, next to the newer one

  /**
   * The older `extract_address` raises IndexError when the first address
   * group has no candidate, even though a later group has one; the newer
   * `extract_address` returns that later candidate.
   */
  lemma LegacyExtractFirstGroupOnly()
    ensures var svc := Geocoder.Services(
              _ => [],
              _ => [Geocoder.AddressGroup([]), Geocoder.AddressGroup([Geocoder.Candidate(47.6, -122.3)])]);
            var a: Geocoder.StdAddress := [("street", Some("1 MAIN ST"))];
      && LegacyExtractAddress(a, svc) == Failure(IndexError)
      && Geocoder.ExtractAddress(a, svc).response == Geocoder.LatLng(47.6, -122.3)
  {
    var svc := Geocoder.Services(
      _ => [],
      _ => [Geocoder.AddressGroup([]), Geocoder.AddressGroup([Geocoder.Candidate(47.6, -122.3)])]);
    var a: Geocoder.StdAddress := [("street", Some("1 MAIN ST"))];
    var groups := svc.extract(Geocoder.ExtractText(a));
    assert |groups[0].candidates| == 0 && |groups[1].candidates| > 0;
  }

  /** The map and the address of the numeric-field example: a JSON zipcode stored as a number. */
  const NumericMap: Address.AddressMap := [
    ("street", Some("addr")), ("street2", None), ("secondary", None),
    ("city", None), ("state", None), ("zipcode", Some("zip"))]

  const NumericAddress: Record := [("addr", JStr("1 Main St")), ("zip", JNum(98144))]

  /** The older `standardize_address` raises AttributeError on the numeric zipcode. */
  lemma LegacyRejectsNumericField()
    ensures LegacyStandardizeAddress(NumericAddress, NumericMap) == Failure(AttributeError)
  {
    assert Values(NumericMap)[0] == Some("addr") && Values(NumericMap)[5] == Some("zip");
    assert Keys(NumericAddress) == ["addr", "zip"];
    assert !NumericAddress[1].1.JStr?;
  }

  lemma NumericFieldsPresent()
    ensures DistinctKeys(NumericMap)
    ensures Address.FieldsPresent(NumericAddress, NumericMap)
    ensures NumericMap[5] == ("zipcode", Some("zip"))
  {
    assert Keys(NumericMap) == ["street", "street2", "secondary", "city", "state", "zipcode"];
    assert Keys(NumericAddress) == ["addr", "zip"];
  }

  lemma NumericZipText()
    ensures "zip" in Keys(NumericAddress)
    ensures Address.RoleValue(NumericAddress, Some("zip")) == Some("98144")
  {
    assert Keys(NumericAddress) == ["addr", "zip"];
    assert Get(NumericAddress, "zip") == Some(JNum(98144));
    ZipDigits();
    NumberIsNormalized(98144);
  }

  lemma ZipDigits()
    ensures Str(JNum(98144)) == "98144"
  {
    assert NatToString(9) == "9";
    assert NatToString(98) == "98";
    assert NatToString(981) == "981";
    assert NatToString(9814) == "9814";
    assert NatToString(98144) == "98144";
  }

  /** The text of a number has no letter and no space, so normalizing it changes nothing. */
  lemma NumberIsNormalized(n: int)
    ensures Text.Normalize(Str(JNum(n))) == Str(JNum(n))
  {
    var s := Str(JNum(n));
    assert forall i | 0 <= i < |s| :: s[i] == '-' || '0' <= s[i] <= '9';
    Text.NormalizeFixes(s);
  }

  /** The newer `standardize_address` turns the same zipcode into the text "98144". */
  lemma NewerAcceptsNumericField()
    ensures DistinctKeys(NumericMap)
    ensures Address.StandardizeAddress(NumericAddress, NumericMap).Success?
    ensures Get(Address.StandardizeAddress(NumericAddress, NumericMap).value, "zipcode") == Some(Some("98144"))
  {
    NumericFieldsPresent();
    NumericZipText();
    var r := Address.StandardizeAddress(NumericAddress, NumericMap);
    assert Get(r.value, NumericMap[5].0) == Some(Address.RoleValue(NumericAddress, NumericMap[5].1));
  }
}

=== FILE: pii.dfy ===
/**
 * Personal-identifier standardization (`standardize_pii`) and the text that
 * `generate_hash` digests. The digest itself is a parameter.
 */
module Pii {
  import opened Wrappers
  import opened Dicts
  import opened Errors
  import opened Records
  import Text
  import Geocoder

  /** Role name (`name`, `birth-date`, ...) to the record field holding it, or None when unset. */
  type PiiMap = Dict<string, Option<string>>

  type StdPii = Dict<string, Option<string>>

  /** The roles of a standardized record, in output order. */
  const PiiRoles: seq<string> := ["name", "birth-date", "gender", "postal-code"]

  predicate IsAsciiLetter(c: char) {
    'a' <= c <= 'z' || 'A' <= c <= 'Z'
  }

  /** `re.sub('[^a-zA-Z]+', '', s)`: every character that is not an ASCII letter removed. */
  function LettersOnly(s: string): (r: string)
    ensures forall i | 0 <= i < |r| :: IsAsciiLetter(r[i])
    ensures forall c :: c in r <==> c in s && IsAsciiLetter(c)
    ensures |r| <= |s|
    ensures |s| == 1 ==> r == (if IsAsciiLetter(s[0]) then s else "")
  {
    if |s| == 0 then ""
    else if IsAsciiLetter(s[0]) then [s[0]] + LettersOnly(s[1..])
    else LettersOnly(s[1..])
  }

  /** Removal works character by character, so the kept letters stay in their order. */
  lemma {:induction false} LettersOnlyAppend(a: string, b: string)
    ensures LettersOnly(a + b) == LettersOnly(a) + LettersOnly(b)
  {
    if |a| == 0 {
      assert a + b == b;
    } else {
      assert (a + b)[1..] == a[1..] + b;
      LettersOnlyAppend(a[1..], b);
    }
  }

  /** `for key in pii: pii[key] = str(pii[key]).upper().strip()` */
  function NormalizePii(pii: Record): (n: Dict<string, string>)
    ensures Keys(n) == Keys(pii)
    ensures forall i | 0 <= i < |pii| :: n[i].1 == Text.Normalize(Str(pii[i].1))
  {
    seq(|pii|, i requires 0 <= i < |pii| => (pii[i].0, Text.Normalize(Str(pii[i].1))))
  }

  /** `api_map[role] and pii[api_map[role]]`, the name role keeping only its letters. */
  function PiiEntry(n: Dict<string, string>, m: PiiMap, role: string): (r: Result<Option<string>, Error>)
    ensures r.Failure? <==>
      role !in Keys(m) || (Geocoder.Truthy(Get(m, role).value) && Get(m, role).value.value !in Keys(n))
    ensures r.Failure? && role !in Keys(m) ==> r.error == KeyError(role)
    ensures r.Failure? && role in Keys(m) ==> r.error == KeyError(Get(m, role).value.value)
    ensures r.Success? && !Geocoder.Truthy(Get(m, role).value) ==> r.value == Get(m, role).value
    ensures r.Success? && Geocoder.Truthy(Get(m, role).value) ==>
      var v := Get(n, Get(m, role).value.value).value;
      r.value == Some(if role == "name" then LettersOnly(v) else v)
  {
    match Get(m, role)
    case None => Failure(KeyError(role))
    case Some(field) =>
      if !Geocoder.Truthy(field) then Success(field)
      else
        match Get(n, field.value)
        case None => Failure(KeyError(field.value))
        case Some(v) => Success(Some(if role == "name" then LettersOnly(v) else v))
  }

  /** The dict literal of the roles, evaluated in order: the first failing role raises. */
  function PiiEntries(n: Dict<string, string>, m: PiiMap, roles: seq<string>): (r: Result<StdPii, Error>)
    ensures r.Success? <==> forall i | 0 <= i < |roles| :: PiiEntry(n, m, roles[i]).Success?
    ensures r.Success? ==> Keys(r.value) == roles
    ensures r.Success? ==> forall i | 0 <= i < |roles| :: r.value[i].1 == PiiEntry(n, m, roles[i]).value
    ensures r.Failure? ==> r.error.KeyError?
  {
    if |roles| == 0 then Success([])
    else
      var head := PiiEntry(n, m, roles[0]);
      var tail := PiiEntries(n, m, roles[1..]);
      if head.Failure? then Failure(head.error)
      else if tail.Failure? then
        assert exists i | 0 <= i < |roles[1..]| :: PiiEntry(n, m, roles[1..][i]).Failure?;
        Failure(tail.error)
      else
        var r := [(roles[0], head.value)] + tail.value;
        PiiEntriesStep(roles, r, tail.value);
        Success(r)
  }

  lemma PiiEntriesStep(roles: seq<string>, r: StdPii, rest: StdPii)
    requires |roles| > 0 && |r| > 0 && Keys(rest) == roles[1..] && r == [(roles[0], r[0].1)] + rest
    ensures Keys(r) == roles
    ensures forall i | 1 <= i < |roles| :: r[i] == rest[i - 1] && roles[i] == roles[1..][i - 1]
  {
    KeysCons(r[0], rest);
  }

  /** Every role is in the map and every set role's field is in the record. */
  predicate PiiResolvable(pii: Record, m: PiiMap) {
    forall role | role in PiiRoles ::
      role in Keys(m) && (Geocoder.Truthy(Get(m, role).value) ==> Get(m, role).value.value in Keys(pii))
  }

  /** The normalized text of field `f` of the record, empty when the record lacks it. */
  function FieldText(pii: Record, f: string): string {
    match Get(pii, f)
    case Some(v) => Text.Normalize(Str(v))
    case None => ""
  }

  /** What `standardize_pii` gives a role, when it does not raise. */
  function PiiValue(pii: Record, m: PiiMap, role: string): Option<string>
    requires role in Keys(m)
    requires Geocoder.Truthy(Get(m, role).value) ==> Get(m, role).value.value in Keys(pii)
  {
    var field := Get(m, role).value;
    if !Geocoder.Truthy(field) then field
    else
      var v := Text.Normalize(Str(Get(pii, field.value).value));
      Some(if role == "name" then LettersOnly(v) else v)
  }

  /**
   * `standardize_pii`: the subset check has no effect; every value is
   * normalized; the four roles are read in order, a role missing from the
   * map or a set role's field missing from the record raising KeyError.
   */
  function StandardizePii(pii: Record, m: PiiMap): (r: Result<StdPii, Error>)
    ensures r.Success? <==> PiiResolvable(pii, m)
    ensures r.Failure? ==> r.error.KeyError?
    ensures r.Success? ==> Keys(r.value) == PiiRoles
    ensures r.Success? ==> forall i | 0 <= i < |PiiRoles| :: r.value[i].1 == PiiValue(pii, m, PiiRoles[i])
  {
    var n := NormalizePii(pii);
    PiiEntriesMeaning(pii, m);
    PiiEntries(n, m, PiiRoles)
  }

  lemma PiiEntriesMeaning(pii: Record, m: PiiMap)
    ensures var n := NormalizePii(pii);
      && ((forall i | 0 <= i < |PiiRoles| :: PiiEntry(n, m, PiiRoles[i]).Success?) <==> PiiResolvable(pii, m))
      && (PiiResolvable(pii, m) ==> forall i | 0 <= i < |PiiRoles| ::
            PiiEntry(n, m, PiiRoles[i]).value == PiiValue(pii, m, PiiRoles[i]))
  {
    NormalizePiiGet(pii);
  }

  /** Looking a field up after normalization finds the normalized value. */
  lemma NormalizePiiGet(pii: Record)
    ensures forall f :: Get(NormalizePii(pii), f) == if f in Keys(pii) then Some(Text.Normalize(Str(Get(pii, f).value))) else None
  {
    var n := NormalizePii(pii);
    forall f | f in Keys(pii) ensures Get(n, f) == Some(Text.Normalize(Str(Get(pii, f).value))) {
      var j := FirstIndex(Keys(pii), f);
      assert Keys(n)[j] == f;
    }
  }

  /** Evaluating the roles over two lookups that agree on every role gives the same result. */
  lemma {:induction false} PiiEntriesAgree(n1: Dict<string, string>, n2: Dict<string, string>, m: PiiMap, roles: seq<string>)
    requires forall role | role in roles :: PiiEntry(n1, m, role) == PiiEntry(n2, m, role)
    ensures PiiEntries(n1, m, roles) == PiiEntries(n2, m, roles)
  {
    if |roles| > 0 {
      assert roles[0] in roles;
      PiiEntriesAgree(n1, n2, m, roles[1..]);
    }
  }

  /** The standardized name holds only the capital letters A to Z. */
  lemma NameIsCapitalLetters(pii: Record, m: PiiMap)
    requires StandardizePii(pii, m).Success?
    requires StandardizePii(pii, m).value[0].1.Some?
    ensures forall c | c in StandardizePii(pii, m).value[0].1.value :: 'A' <= c <= 'Z'
  {
    var r := StandardizePii(pii, m).value;
    assert PiiRoles[0] == "name";
    var field := Get(m, "name").value;
    if Geocoder.Truthy(field) {
      var v := Text.Normalize(Str(Get(pii, field.value).value));
      forall c | c in LettersOnly(v) ensures 'A' <= c <= 'Z' {
        assert c in v;
        var i :| 0 <= i < |v| && v[i] == c;
        assert !Text.IsLower(v[i]);
      }
    } else {
      assert field.Some? ==> field.value == "";
    }
  }

  /**
   * The text `generate_hash` digests: the values joined with single spaces in
   * role order, then the secret. A None value makes the join raise TypeError.
   */
  function HashedText(std: StdPii, secret: string): (r: Result<string, Error>)
    ensures r.Failure? <==> exists i | 0 <= i < |std| :: std[i].1.None?
    ensures r.Failure? ==> r.error == TypeError
    ensures r.Success? ==>
      r.value == Text.Join(" ", seq(|std|, i requires 0 <= i < |std| => std[i].1.value)) + secret
  {
    if exists i | 0 <= i < |std| :: std[i].1.None? then Failure(TypeError)
    else Success(Text.Join(" ", seq(|std|, i requires 0 <= i < |std| => std[i].1.value)) + secret)
  }

  /** `generate_hash`, with the digest `hash` (SHA-256 hex in the source) as a parameter. */
  function GenerateHash(std: StdPii, secret: string, hash: string -> string): (r: Result<string, Error>)
    ensures r.Failure? <==> HashedText(std, secret).Failure?
    ensures r.Success? ==> r.value == hash(HashedText(std, secret).value)
  {
    var text :- HashedText(std, secret);
    Success(hash(text))
  }

  /**
   * Two records whose mapped fields normalize to the same text (they differ
   * only in letter case or surrounding space) get the same identifier.
   */
  lemma SameNormalizedSameHash(p1: Record, p2: Record, m: PiiMap, secret: string, hash: string -> string)
    requires forall f :: f in Keys(p1) <==> f in Keys(p2)
    requires forall f | f in Keys(p1) :: Text.Normalize(Str(Get(p1, f).value)) == Text.Normalize(Str(Get(p2, f).value))
    ensures StandardizePii(p1, m) == StandardizePii(p2, m)
    ensures StandardizePii(p1, m).Success? ==>
      GenerateHash(StandardizePii(p1, m).value, secret, hash) == GenerateHash(StandardizePii(p2, m).value, secret, hash)
  {
    var n1, n2 := NormalizePii(p1), NormalizePii(p2);
    NormalizePiiGet(p1);
    NormalizePiiGet(p2);
    assert forall f :: Get(n1, f) == Get(n2, f);
    PiiEntriesAgree(n1, n2, m, PiiRoles);
  }

  /** `PII_CONFIG['default']` */
  const DefaultPiiMap: PiiMap := [
    ("name", Some("Patient Name")), ("birth-date", Some("DOB")),
    ("gender", Some("Gender")), ("postal-code", Some("Postal Code"))]

  /** Under `PII_CONFIG['sch']`, which is empty, every record raises KeyError for the name role. */
  lemma EmptyPiiMapFails(pii: Record)
    ensures StandardizePii(pii, []) == Failure(KeyError("name"))
  {
    assert PiiRoles[0] == "name";
  }

  lemma FullMapGet(m: PiiMap)
    requires Keys(m) == PiiRoles
    ensures |m| == |PiiRoles|
    ensures forall i | 0 <= i < |PiiRoles| :: Get(m, PiiRoles[i]) == Some(m[i].1)
  {
    assert |m| == |Keys(m)|;
    forall i | 0 <= i < |PiiRoles| ensures Get(m, PiiRoles[i]) == Some(m[i].1) {
      assert Keys(m)[i] == PiiRoles[i];
      assert FirstIndex(Keys(m), PiiRoles[i]) == i;
    }
  }

  /**
   * A map that sets every role to a field the record holds: the name is the
   * letters of its field, the other roles their fields' normalized text.
   */
  lemma FullMapStandardizes(pii: Record, m: PiiMap)
    requires Keys(m) == PiiRoles
    requires forall i | 0 <= i < |m| :: m[i].1.Some? && m[i].1.value != "" && m[i].1.value in Keys(pii)
    ensures StandardizePii(pii, m).Success?
    ensures |StandardizePii(pii, m).value| == |m| == |PiiRoles|
    ensures StandardizePii(pii, m).value[0] == ("name", Some(LettersOnly(FieldText(pii, m[0].1.value))))
    ensures forall i | 1 <= i < |m| :: StandardizePii(pii, m).value[i] == (m[i].0, Some(FieldText(pii, m[i].1.value)))
  {
    FullMapEntries(pii, m);
    OnlyFirstRoleIsName();
    forall i | 0 <= i < |m|
      ensures PiiValue(pii, m, PiiRoles[i]) == Some(if i == 0 then LettersOnly(FieldText(pii, m[i].1.value)) else FieldText(pii, m[i].1.value))
    {
    }
  }

  lemma FullMapEntries(pii: Record, m: PiiMap)
    requires Keys(m) == PiiRoles
    requires forall i | 0 <= i < |m| :: m[i].1.Some? && m[i].1.value != "" && m[i].1.value in Keys(pii)
    ensures |m| == |PiiRoles|
    ensures forall i | 0 <= i < |PiiRoles| :: Get(m, PiiRoles[i]) == Some(m[i].1)
    ensures StandardizePii(pii, m).Success?
    ensures |StandardizePii(pii, m).value| == |m|
    ensures forall i | 0 <= i < |m| :: StandardizePii(pii, m).value[i] == (m[i].0, PiiValue(pii, m, PiiRoles[i]))
  {
    FullMapGet(m);
    var r := StandardizePii(pii, m);
    assert r.Success?;
    forall i | 0 <= i < |m| ensures r.value[i] == (m[i].0, PiiValue(pii, m, PiiRoles[i])) {
      assert Keys(r.value)[i] == PiiRoles[i] == Keys(m)[i];
    }
  }

  lemma OnlyFirstRoleIsName()
    ensures PiiRoles[0] == "name"
    ensures forall i | 1 <= i < |PiiRoles| :: PiiRoles[i] != "name"
  {
    forall i | 1 <= i < |PiiRoles| ensures PiiRoles[i] != "name" {
      assert PiiRoles[i][0] != 'n';
    }
  }

  /** `PII_CONFIG['default']` sets every role, so `FullMapStandardizes` applies to it. */
  lemma DefaultPiiMapFull()
    ensures Keys(DefaultPiiMap) == PiiRoles
    ensures forall i | 0 <= i < |DefaultPiiMap| :: DefaultPiiMap[i].1.Some? && DefaultPiiMap[i].1.value != ""
  {
  }
}

=== FILE: pipeline.dfy ===
/**
 * The newer revision's per-record pipeline (`process_json_record`) and the
 * batch loop of `process_json` around it: address extraction,
 * standardization, cache check, geocoding, cache write, removal of the
 * identifying fields and the added `census_tract` key.
 */
module Pipeline {
  import opened Wrappers
  import opened Dicts
  import opened Errors
  import opened Records
  import Text
  import JsonKey
  import ResultCache
  import Geocoder
  import Boundary
  import Address

  type Cache = ResultCache.Cache<Geocoder.Response>

  /** The two command-line switches that reach the per-record step. */
  datatype Config = Config(invalidateCache: bool, keepZipcode: bool)

  /**
   * What one record produces: the output record or the error raised, the
   * cache after the step, the response that was (or would have been) saved,
   * and the service calls made.
   */
  datatype Outcome = Outcome(
    result: Result<Record, Error>,
    cache: Cache,
    response: Geocoder.Response,
    calls: seq<Geocoder.Call>)

  /** Every stored value is a dict: `geocode_uncached_address` never returns None. */
  ghost predicate HoldsDicts(c: Cache) {
    forall key | key in c.entries :: c.entries[key].value.IsDict()
  }

  /** `check_cache`: the stored response, or None on a miss, an expired entry or an empty cache. */
  function CheckCache(c: Cache, key: string, now: int): (r: Geocoder.Response)
    ensures ResultCache.Read(c, key, now).Some? ==> r == ResultCache.Read(c, key, now).value
    ensures ResultCache.Read(c, key, now).None? ==> r == Geocoder.Null
    ensures HoldsDicts(c) ==> (r.IsDict() <==> ResultCache.Read(c, key, now).Some?)
  {
    match ResultCache.Read(c, key, now)
    case None => Geocoder.Null
    case Some(v) => v
  }

  /** `save_to_cache`: store the response under the sorted JSON key, overwriting. */
  function SaveToCache(std: Geocoder.StdAddress, response: Geocoder.Response, c: Cache, now: int): (r: Cache)
    requires DistinctKeys(std)
    ensures r.ttl == c.ttl
    ensures forall t | now <= t < now + c.ttl :: ResultCache.Read(r, JsonKey.SortedKey(std), t) == Some(response)
    ensures forall other, t | other != JsonKey.SortedKey(std) :: ResultCache.Read(r, other, t) == ResultCache.Read(c, other, t)
    ensures HoldsDicts(c) && response.IsDict() ==> HoldsDicts(r)
  {
    ResultCache.Write(c, JsonKey.SortedKey(std), response, now)
  }

  /**
   * A saved response is found again within the time-to-live by any address
   * holding the same entries, whatever order they were inserted in.
   */
  lemma SaveThenCheck(std1: Geocoder.StdAddress, std2: Geocoder.StdAddress, response: Geocoder.Response,
                      c: Cache, now: int, t: int)
    requires DistinctKeys(std1) && DistinctKeys(std2)
    requires forall e :: e in std1 <==> e in std2
    requires now <= t < now + c.ttl
    ensures CheckCache(SaveToCache(std1, response, c, now), JsonKey.SortedKey(std2), t) == response
  {
    JsonKey.SortedKeyIff(std1, std2);
  }

  /** Of two saves for the same address, the later one is what a check finds. */
  lemma LaterSaveWins(std: Geocoder.StdAddress, r1: Geocoder.Response, r2: Geocoder.Response,
                      c: Cache, t1: int, t2: int, t: int)
    requires DistinctKeys(std)
    requires t2 <= t < t2 + c.ttl
    ensures CheckCache(SaveToCache(std, r2, SaveToCache(std, r1, c, t1), t2), JsonKey.SortedKey(std), t) == r2
  {
    var once := SaveToCache(std, r1, c, t1);
    assert once.ttl == c.ttl;
  }

  /** `list.remove`: drops the first occurrence of `x`. */
  function RemoveFirst<T(==,!new)>(s: seq<T>, x: T): (r: seq<T>)
    requires x in s
    ensures |r| == |s| - 1
    ensures multiset(r) == multiset(s) - multiset{x}
    ensures forall y :: y in r <==> y in s && (y != x || multiset(s)[x] > 1)
  {
    if s[0] == x then
      assert s == [s[0]] + s[1..];
      s[1..]
    else
      assert s == [s[0]] + s[1..];
      [s[0]] + RemoveFirst(s[1..], x)
  }

  /**
   * The values of the map that name fields to drop; with `keep_zipcode` the
   * first occurrence of the zipcode role's value is taken out, and a map
   * without a zipcode role raises KeyError.
   */
  function DropKeys(m: Address.AddressMap, keepZipcode: bool): (r: Result<seq<Option<string>>, Error>)
    ensures !keepZipcode ==> r == Success(Values(m))
    ensures keepZipcode ==> (r.Failure? <==> "zipcode" !in Keys(m))
    ensures r.Failure? ==> r.error == KeyError("zipcode")
  {
    if !keepZipcode then Success(Values(m))
    else
      match Get(m, "zipcode")
      case None => Failure(KeyError("zipcode"))
      case Some(z) =>
        assert z in Values(m) by {
          var i := FirstIndex(Keys(m), "zipcode");
          assert Values(m)[i] == z;
        }
        Success(RemoveFirst(Values(m), z))
  }

  /**
   * Field `k` of the record is removed from the output: it is a field some
   * role maps to, unless `keep_zipcode` spares it as the zipcode role's field
   * that no other role also names.
   */
  ghost predicate Dropped(m: Address.AddressMap, keepZipcode: bool, k: string) {
    && Some(k) in Values(m)
    && !(keepZipcode && Get(m, "zipcode") == Some(Some(k)) && multiset(Values(m))[Some(k)] == 1)
  }

  lemma DropKeysMeaning(m: Address.AddressMap, keepZipcode: bool, k: string)
    requires DropKeys(m, keepZipcode).Success?
    ensures Some(k) in DropKeys(m, keepZipcode).value <==> Dropped(m, keepZipcode, k)
  {
  }

  lemma DropKeysAllMeaning(m: Address.AddressMap, keepZipcode: bool)
    requires DropKeys(m, keepZipcode).Success?
    ensures forall k :: Some(k) in DropKeys(m, keepZipcode).value <==> Dropped(m, keepZipcode, k)
  {
    forall k ensures Some(k) in DropKeys(m, keepZipcode).value <==> Dropped(m, keepZipcode, k) {
      DropKeysMeaning(m, keepZipcode, k);
    }
  }

  /**
   * `{k: record[k] for k in record if k not in drop_keys}` followed by
   * `result["census_tract"] = tract`.
   */
  function OutputRecord(record: Record, drop: seq<Option<string>>, tract: Value): (r: Record)
    requires DistinctKeys(record)
    ensures DistinctKeys(r)
    ensures forall k :: k in Keys(r) <==> k == "census_tract" || (k in Keys(record) && Some(k) !in drop)
    ensures forall k | k != "census_tract" && k in Keys(r) :: Get(r, k) == Get(record, k)
    ensures Get(r, "census_tract") == Some(tract)
  {
    var kept := Where(record, k => Some(k) !in drop);
    var r := Put(kept, "census_tract", tract);
    assert forall k | k != "census_tract" && k in Keys(r) :: Get(r, k) == Get(record, k) by {
      forall k | k != "census_tract" && k in Keys(r) ensures Get(r, k) == Get(record, k) {
        assert k in Keys(kept);
        var v := Get(kept, k).value;
        assert (k, v) in record;
      }
    }
    r
  }

  /** The `census_tract` value written into the record: null when no tract was found. */
  function TractValue(tract: Option<string>): (v: Value)
    ensures v == JNull <==> tract.None?
    ensures tract.Some? ==> v == JStr(tract.value)
  {
    match tract
    case None => JNull
    case Some(t) => JStr(t)
  }

  /** The standardized address the pipeline derives from a record. */
  function StdAddressOf(record: Record, m: Address.AddressMap): (r: Result<Geocoder.StdAddress, Error>)
    requires DistinctKeys(record) && DistinctKeys(m)
    ensures r.Failure? <==> Address.AddressDataJsonRecord(record, m).Failure?
    ensures r.Failure? ==> r.error == Address.AddressDataJsonRecord(record, m).error
    ensures r.Success? ==> DistinctKeys(r.value)
    ensures r.Success? ==> forall role :: role in Keys(r.value) <==> role != "" && role in Keys(m)
    ensures r.Success? ==> forall i | 0 <= i < |m| && m[i].0 != "" ::
      Get(r.value, m[i].0) == Some(Address.RoleValue(Address.AddressDataJsonRecord(record, m).value, m[i].1))
  {
    var address :- Address.AddressDataJsonRecord(record, m);
    Address.ExtractedAddressStandardizes(record, m);
    Address.StandardizeAddress(address, m)
  }

  /**
   * The output keeps every field of the record that is not dropped, with its
   * value, and adds `census_tract`.
   */
  ghost predicate Deidentified(out: Record, record: Record, m: Address.AddressMap, keepZipcode: bool) {
    && (forall k :: k in Keys(out) <==> k == "census_tract" || (k in Keys(record) && !Dropped(m, keepZipcode, k)))
    && (forall k | k != "census_tract" && k in Keys(out) :: Get(out, k) == Get(record, k))
  }

  /**
   * `process_json_record`. The cache is read unless `invalidate_cache` is
   * set, is written with whatever response geocoding produced (including
   * `{}`), and keeps that write even when dropping the keys later raises.
   */
  function ProcessJsonRecord<S>(
    record: Record, m: Address.AddressMap, tracts: seq<Boundary.Tract<S>>,
    contains: (S, Boundary.Point) -> bool, c: Cache, now: int, cfg: Config,
    svc: Geocoder.Services): (r: Outcome)
    requires DistinctKeys(record) && DistinctKeys(m)
    ensures r.result.Success? ==> StdAddressOf(record, m).Success? && r.response.IsDict()
    ensures r.result.Success? ==> Deidentified(r.result.value, record, m, cfg.keepZipcode)
    ensures r.result.Success? ==>
      Get(r.result.value, "census_tract") ==
        Some(TractValue(Boundary.CensusTractJsonRecord(r.response, tracts, contains)))
    ensures r.result.Success? ==> DistinctKeys(r.result.value)
    ensures r.response.IsDict() ==> StdAddressOf(record, m).Success?
    ensures r.response.IsDict() ==>
      forall t | now <= t < now + c.ttl ::
        ResultCache.Read(r.cache, JsonKey.SortedKey(StdAddressOf(record, m).value), t) == Some(r.response)
    ensures !r.response.IsDict() ==> r.cache == c && r.result.Failure?
    ensures r.response.IsDict() ==>
      && (r.result.Success? <==> DropKeys(m, cfg.keepZipcode).Success?)
      && (r.result.Failure? ==> r.result.error == DropKeys(m, cfg.keepZipcode).error)
    ensures r.cache.ttl == c.ttl
    ensures HoldsDicts(c) ==> HoldsDicts(r.cache)
    ensures StdAddressOf(record, m).Success? ==>
      forall key, t | key != JsonKey.SortedKey(StdAddressOf(record, m).value) ::
        ResultCache.Read(r.cache, key, t) == ResultCache.Read(c, key, t)
    ensures StdAddressOf(record, m).Success? &&
            (cfg.invalidateCache || !CheckCache(c, JsonKey.SortedKey(StdAddressOf(record, m).value), now).IsDict()) ==>
      var g := Geocoder.GeocodeUncachedAddress(Geocoder.Null, StdAddressOf(record, m).value, svc);
      && (g.Failure? ==> r == Outcome(Failure(g.error), c, Geocoder.Null, []))
      && (g.Success? ==> r.response == g.value.response && r.calls == g.value.calls)
    ensures StdAddressOf(record, m).Failure? ==>
      r == Outcome(Failure(StdAddressOf(record, m).error), c, Geocoder.Null, [])
  {
    match StdAddressOf(record, m)
    case Failure(e) => Outcome(Failure(e), c, Geocoder.Null, [])
    case Success(std) =>
      var cached := if cfg.invalidateCache then Geocoder.Null else CheckCache(c, JsonKey.SortedKey(std), now);
      match Geocoder.GeocodeUncachedAddress(cached, std, svc)
      case Failure(e) => Outcome(Failure(e), c, Geocoder.Null, [])
      case Success(geocoded) =>
        var saved := SaveToCache(std, geocoded.response, c, now);
        match DropKeys(m, cfg.keepZipcode)
        case Failure(e) => Outcome(Failure(e), saved, geocoded.response, geocoded.calls)
        case Success(drop) =>
          var result := OutputRecord(record, drop, TractValue(Boundary.CensusTractJsonRecord(geocoded.response, tracts, contains)));
          DropKeysAllMeaning(m, cfg.keepZipcode);
          Outcome(Success(result), saved, geocoded.response, geocoded.calls)
  }

  /** A cached response is used as is: no service is called. */
  lemma CacheHitMakesNoCalls<S>(
    record: Record, m: Address.AddressMap, tracts: seq<Boundary.Tract<S>>,
    contains: (S, Boundary.Point) -> bool, c: Cache, now: int, cfg: Config, svc: Geocoder.Services)
    requires DistinctKeys(record) && DistinctKeys(m) && !cfg.invalidateCache
    ensures StdAddressOf(record, m).Success? &&
            CheckCache(c, JsonKey.SortedKey(StdAddressOf(record, m).value), now).IsDict() ==>
      var r := ProcessJsonRecord(record, m, tracts, contains, c, now, cfg, svc);
      && r.calls == []
      && r.response == CheckCache(c, JsonKey.SortedKey(StdAddressOf(record, m).value), now)
      && (r.result.Success? <==> DropKeys(m, cfg.keepZipcode).Success?)
  {
  }

  /** With `invalidate_cache` set, nothing about the result depends on what the cache held. */
  lemma InvalidateIgnoresCache<S>(
    record: Record, m: Address.AddressMap, tracts: seq<Boundary.Tract<S>>,
    contains: (S, Boundary.Point) -> bool, c1: Cache, c2: Cache, now: int, cfg: Config, svc: Geocoder.Services)
    requires DistinctKeys(record) && DistinctKeys(m) && cfg.invalidateCache
    ensures var r1 := ProcessJsonRecord(record, m, tracts, contains, c1, now, cfg, svc);
            var r2 := ProcessJsonRecord(record, m, tracts, contains, c2, now, cfg, svc);
      r1.result == r2.result && r1.response == r2.response && r1.calls == r2.calls
  {
  }

  /**
   * Processing the same record again within the time-to-live, without
   * `invalidate_cache`, calls no service and gives the same output or the
   * same error.
   */
  lemma RepeatWithinTtl<S>(
    record: Record, m: Address.AddressMap, tracts: seq<Boundary.Tract<S>>,
    contains: (S, Boundary.Point) -> bool, c: Cache, now: int, later: int, cfg: Config, svc: Geocoder.Services)
    requires DistinctKeys(record) && DistinctKeys(m) && !cfg.invalidateCache
    requires now <= later < now + c.ttl
    ensures var r1 := ProcessJsonRecord(record, m, tracts, contains, c, now, cfg, svc);
            var r2 := ProcessJsonRecord(record, m, tracts, contains, r1.cache, later, cfg, svc);
      r2.calls == [] && r2.result == r1.result && r2.response == r1.response
  {
    var r1 := ProcessJsonRecord(record, m, tracts, contains, c, now, cfg, svc);
    if StdAddressOf(record, m).Success? {
      var std := StdAddressOf(record, m).value;
      if r1.response.IsDict() {
        assert ResultCache.Read(r1.cache, JsonKey.SortedKey(std), later) == Some(r1.response);
      } else {
        ExpiredStaysExpired(c, JsonKey.SortedKey(std), now, later);
      }
    }
  }

  /** An entry that is not a live dict at one time is not one later either. */
  lemma ExpiredStaysExpired(c: Cache, key: string, now: int, later: int)
    requires now <= later
    requires !CheckCache(c, key, now).IsDict()
    ensures !CheckCache(c, key, later).IsDict()
  {
  }

  /** Both tiers of lookup found nothing and no usable cached response exists. */
  ghost predicate NothingFound(record: Record, m: Address.AddressMap, c: Cache, now: int, cfg: Config, svc: Geocoder.Services)
    requires DistinctKeys(record) && DistinctKeys(m)
  {
    && StdAddressOf(record, m).Success?
    && var std := StdAddressOf(record, m).value;
    && (cfg.invalidateCache || ResultCache.Read(c, JsonKey.SortedKey(std), now).None?)
    && Geocoder.LookupAddress(std, svc).Success?
    && !Geocoder.LookupAddress(std, svc).value.response.IsTruthy()
    && Geocoder.ExtractAddress(std, svc).response == Geocoder.Empty
  }

  /**
   * When both the structured lookup and the free-text fallback find nothing,
   * the negative result `{}` is cached and the output's tract is null.
   */
  lemma NegativeResultCached<S>(
    record: Record, m: Address.AddressMap, tracts: seq<Boundary.Tract<S>>,
    contains: (S, Boundary.Point) -> bool, c: Cache, now: int, cfg: Config, svc: Geocoder.Services)
    requires DistinctKeys(record) && DistinctKeys(m)
    ensures NothingFound(record, m, c, now, cfg, svc) ==>
      var r := ProcessJsonRecord(record, m, tracts, contains, c, now, cfg, svc);
      && r.response == Geocoder.Empty
      && (forall t | now <= t < now + c.ttl ::
            ResultCache.Read(r.cache, JsonKey.SortedKey(StdAddressOf(record, m).value), t) == Some(Geocoder.Empty))
      && (r.result.Success? ==> Get(r.result.value, "census_tract") == Some(JNull))
  {
    if NothingFound(record, m, c, now, cfg, svc) {
      NothingFoundResponse(record, m, tracts, contains, c, now, cfg, svc);
      var r := ProcessJsonRecord(record, m, tracts, contains, c, now, cfg, svc);
      assert r.response.IsDict();
      assert Boundary.CensusTractJsonRecord(Geocoder.Empty, tracts, contains) == None;
    }
  }

  lemma NothingFoundResponse<S>(
    record: Record, m: Address.AddressMap, tracts: seq<Boundary.Tract<S>>,
    contains: (S, Boundary.Point) -> bool, c: Cache, now: int, cfg: Config, svc: Geocoder.Services)
    requires DistinctKeys(record) && DistinctKeys(m)
    ensures NothingFound(record, m, c, now, cfg, svc) ==>
      ProcessJsonRecord(record, m, tracts, contains, c, now, cfg, svc).response == Geocoder.Empty
  {
    if NothingFound(record, m, c, now, cfg, svc) {
      var std := StdAddressOf(record, m).value;
      var cached := if cfg.invalidateCache then Geocoder.Null else CheckCache(c, JsonKey.SortedKey(std), now);
      assert cached == Geocoder.Null;
    }
  }

  // ---------------------------------------------------------------------------
  // The batch loop of `process_json`.

  /** The state of the batch loop: outputs so far, the in-memory cache, each record's calls. */
  datatype Batch = Batch(result: Result<seq<Record>, Error>, cache: Cache, calls: seq<seq<Geocoder.Call>>)

  /** One record's processing, given the cache and the clock reading. */
  type Process = (Record, Cache, int) --> Outcome

  ghost predicate Accepts(process: Process, records: seq<Record>) {
    forall i, c, now | 0 <= i < |records| :: process.requires(records[i], c, now)
  }

  lemma AcceptsPrefix(process: Process, records: seq<Record>, n: nat)
    requires Accepts(process, records) && n <= |records|
    ensures Accepts(process, records[..n])
  {
    forall i, c, now | 0 <= i < n ensures process.requires(records[..n][i], c, now) {
      assert records[..n][i] == records[i];
    }
  }

  /**
   * Processes the records in order, the i-th at clock reading `clock[i]`,
   * threading the cache; the first error stops the loop.
   */
  function Run(records: seq<Record>, clock: seq<int>, c: Cache, process: Process): (r: Batch)
    requires |clock| == |records| && Accepts(process, records)
    ensures r.result.Success? ==> |r.result.value| == |records| == |r.calls|
    decreases |records|
  {
    if |records| == 0 then Batch(Success([]), c, [])
    else
      var n := |records| - 1;
      AcceptsPrefix(process, records, n);
      var before := Run(records[..n], clock[..n], c, process);
      match before.result
      case Failure(_) => before
      case Success(outs) =>
        assert 0 <= n < |records|;
        assert process.requires(records[n], before.cache, clock[n]);
        var o := process(records[n], before.cache, clock[n]);
        match o.result
        case Failure(e) => Batch(Failure(e), o.cache, before.calls + [o.calls])
        case Success(out) => Batch(Success(outs + [out]), o.cache, before.calls + [o.calls])
  }

  /** A successful run is made of successful runs of its prefixes. */
  lemma {:induction false} RunPrefix(records: seq<Record>, clock: seq<int>, c: Cache, process: Process, n: nat)
    requires |clock| == |records| && Accepts(process, records) && n <= |records|
    requires Run(records, clock, c, process).result.Success?
    ensures Accepts(process, records[..n])
    ensures var prefix := Run(records[..n], clock[..n], c, process);
      && prefix.result.Success?
      && prefix.result.value == Run(records, clock, c, process).result.value[..n]
      && prefix.calls == Run(records, clock, c, process).calls[..n]
    decreases |records|
  {
    AcceptsPrefix(process, records, n);
    if n < |records| {
      var k := |records| - 1;
      AcceptsPrefix(process, records, k);
      var before := Run(records[..k], clock[..k], c, process);
      var all := Run(records, clock, c, process);
      assert before.result.Success?;
      assert process.requires(records[k], before.cache, clock[k]);
      var o := process(records[k], before.cache, clock[k]);
      assert all.calls == before.calls + [o.calls];
      assert all.result.value == before.result.value + [o.result.value];
      assert all.calls[..n] == before.calls[..n];
      assert all.result.value[..n] == before.result.value[..n];
      RunPrefix(records[..k], clock[..k], c, process, n);
      assert records[..k][..n] == records[..n];
      assert clock[..k][..n] == clock[..n];
    } else {
      assert records[..n] == records;
      assert clock[..n] == clock;
    }
  }

  /**
   * In a successful run the i-th output and calls are those of processing
   * the i-th record against the cache left by the records before it.
   */
  lemma RunElement(records: seq<Record>, clock: seq<int>, c: Cache, process: Process, i: nat)
    requires |clock| == |records| && Accepts(process, records) && i < |records|
    requires Run(records, clock, c, process).result.Success?
    ensures Accepts(process, records[..i]) && Accepts(process, records[..i + 1])
    ensures var before := Run(records[..i], clock[..i], c, process);
      process.requires(records[i], before.cache, clock[i]) &&
      var o := process(records[i], before.cache, clock[i]);
      && o.result.Success?
      && Run(records, clock, c, process).result.value[i] == o.result.value
      && Run(records, clock, c, process).calls[i] == o.calls
      && Run(records[..i + 1], clock[..i + 1], c, process).cache == o.cache
  {
    RunPrefix(records, clock, c, process, i + 1);
    AcceptsPrefix(process, records, i);
    var rs, cs := records[..i + 1], clock[..i + 1];
    assert rs[..i] == records[..i] && cs[..i] == clock[..i];
    assert rs[i] == records[i] && cs[i] == clock[i];
  }

  /** Two neighbouring records of a successful run: the second sees the cache the first left. */
  lemma RunNeighbours(records: seq<Record>, clock: seq<int>, c: Cache, process: Process, i: nat)
    requires |clock| == |records| && Accepts(process, records) && i + 1 < |records|
    requires Run(records, clock, c, process).result.Success?
    ensures Accepts(process, records[..i])
    ensures var before := Run(records[..i], clock[..i], c, process);
      && process.requires(records[i], before.cache, clock[i])
      && process(records[i], before.cache, clock[i]).result.Success?
      && process.requires(records[i + 1], process(records[i], before.cache, clock[i]).cache, clock[i + 1])
      && Run(records, clock, c, process).calls[i + 1] ==
         process(records[i + 1], process(records[i], before.cache, clock[i]).cache, clock[i + 1]).calls
  {
    RunElement(records, clock, c, process, i);
    RunElement(records, clock, c, process, i + 1);
    assert records[..i + 1][..i] == records[..i] && clock[..i + 1][..i] == clock[..i];
  }

  /** The outcome of the `i`-th record, processed against the cache the records before it left. */
  ghost function StepAt(records: seq<Record>, clock: seq<int>, c: Cache, process: Process, i: nat): Outcome
    requires |clock| == |records| && Accepts(process, records) && i < |records|
  {
    AcceptsPrefix(process, records, i);
    var before := Run(records[..i], clock[..i], c, process).cache;
    assert process.requires(records[i], before, clock[i]);
    process(records[i], before, clock[i])
  }

  /** The `i`-th record is the one that raises: every record before it succeeded and it fails. */
  ghost predicate FailsAt(records: seq<Record>, clock: seq<int>, c: Cache, process: Process, i: nat)
    requires |clock| == |records| && Accepts(process, records)
  {
    && i < |records|
    && (AcceptsPrefix(process, records, i); Run(records[..i], clock[..i], c, process).result.Success?)
    && StepAt(records, clock, c, process, i).result.Failure?
  }

  /** The records before `n` see the same caches and fail at the same place in the prefix run. */
  lemma FailsAtPrefix(records: seq<Record>, clock: seq<int>, c: Cache, process: Process, n: nat, i: nat)
    requires |clock| == |records| && Accepts(process, records) && i < n <= |records|
    ensures Accepts(process, records[..n])
    ensures StepAt(records[..n], clock[..n], c, process, i) == StepAt(records, clock, c, process, i)
    ensures FailsAt(records[..n], clock[..n], c, process, i) <==> FailsAt(records, clock, c, process, i)
  {
    AcceptsPrefix(process, records, n);
    assert records[..n][..i] == records[..i] && clock[..n][..i] == clock[..i];
    assert records[..n][i] == records[i] && clock[..n][i] == clock[i];
  }

  /**
   * A run fails exactly when some record raises after all records before it
   * succeeded; the run then fails with that record's error, and only the
   * records up to it were processed.
   */
  lemma {:induction false} RunFailsAtFirst(records: seq<Record>, clock: seq<int>, c: Cache, process: Process)
    requires |clock| == |records| && Accepts(process, records)
    ensures Run(records, clock, c, process).result.Failure? <==>
      exists i: nat :: FailsAt(records, clock, c, process, i)
    ensures forall i: nat | FailsAt(records, clock, c, process, i) ::
      && Run(records, clock, c, process).result == Failure(StepAt(records, clock, c, process, i).result.error)
      && |Run(records, clock, c, process).calls| == i + 1
    decreases |records|
  {
    var all := Run(records, clock, c, process);
    if |records| > 0 {
      var n := |records| - 1;
      AcceptsPrefix(process, records, n);
      var before := Run(records[..n], clock[..n], c, process);
      RunFailsAtFirst(records[..n], clock[..n], c, process);
      forall i: nat | i < n
        ensures FailsAt(records[..n], clock[..n], c, process, i) <==> FailsAt(records, clock, c, process, i)
        ensures StepAt(records[..n], clock[..n], c, process, i) == StepAt(records, clock, c, process, i)
      {
        FailsAtPrefix(records, clock, c, process, n, i);
      }
      assert StepAt(records, clock, c, process, n) == process(records[n], before.cache, clock[n]);
      if before.result.Failure? {
        assert all == before;
        var j: nat :| FailsAt(records[..n], clock[..n], c, process, j);
        assert FailsAt(records, clock, c, process, j);
      } else if StepAt(records, clock, c, process, n).result.Failure? {
        assert FailsAt(records, clock, c, process, n);
      } else {
        assert forall i: nat :: !FailsAt(records, clock, c, process, i);
      }
    }
  }

  /** A run succeeds exactly when every record, processed in turn, succeeds. */
  lemma RunSucceedsIffEveryStep(records: seq<Record>, clock: seq<int>, c: Cache, process: Process)
    requires |clock| == |records| && Accepts(process, records)
    ensures Run(records, clock, c, process).result.Success? <==>
      forall i | 0 <= i < |records| :: StepAt(records, clock, c, process, i).result.Success?
  {
    RunFailsAtFirst(records, clock, c, process);
    if Run(records, clock, c, process).result.Success? {
      forall i | 0 <= i < |records| ensures StepAt(records, clock, c, process, i).result.Success? {
        RunPrefix(records, clock, c, process, i);
        assert !FailsAt(records, clock, c, process, i);
      }
    }
  }

  /** `process_json_record` with the batch's fixed arguments. */
  function RecordProcess<S>(
    m: Address.AddressMap, tracts: seq<Boundary.Tract<S>>, contains: (S, Boundary.Point) -> bool,
    cfg: Config, svc: Geocoder.Services): Process
    requires DistinctKeys(m)
  {
    (record: Record, c: Cache, now: int) requires DistinctKeys(record) =>
      ProcessJsonRecord(record, m, tracts, contains, c, now, cfg, svc)
  }

  ghost predicate AllDistinct(records: seq<Record>) {
    forall i | 0 <= i < |records| :: DistinctKeys(records[i])
  }

  lemma RecordProcessAccepts<S>(
    records: seq<Record>, m: Address.AddressMap, tracts: seq<Boundary.Tract<S>>,
    contains: (S, Boundary.Point) -> bool, cfg: Config, svc: Geocoder.Services)
    requires AllDistinct(records) && DistinctKeys(m)
    ensures Accepts(RecordProcess(m, tracts, contains, cfg, svc), records)
  {
  }

  /** Processing records never changes the cache's time-to-live. */
  lemma {:induction false} RunKeepsTtl<S>(
    records: seq<Record>, clock: seq<int>, m: Address.AddressMap, tracts: seq<Boundary.Tract<S>>,
    contains: (S, Boundary.Point) -> bool, c: Cache, cfg: Config, svc: Geocoder.Services)
    requires |clock| == |records| && AllDistinct(records) && DistinctKeys(m)
    ensures Accepts(RecordProcess(m, tracts, contains, cfg, svc), records)
    ensures Run(records, clock, c, RecordProcess(m, tracts, contains, cfg, svc)).cache.ttl == c.ttl
    decreases |records|
  {
    var process := RecordProcess(m, tracts, contains, cfg, svc);
    RecordProcessAccepts(records, m, tracts, contains, cfg, svc);
    if |records| > 0 {
      var n := |records| - 1;
      assert AllDistinct(records[..n]) by {
        forall i | 0 <= i < n ensures DistinctKeys(records[..n][i]) {
          assert records[..n][i] == records[i];
        }
      }
      RunKeepsTtl(records[..n], clock[..n], m, tracts, contains, c, cfg, svc);
    }
  }

  /**
   * `process_json`: the outputs of every record, and the cache that
   * `save_cache` persists. An error in any record propagates out of the loop
   * before `save_cache`, so the persisted cache is then the one loaded.
   */
  function ProcessJson<S>(
    records: seq<Record>, clock: seq<int>, m: Address.AddressMap, tracts: seq<Boundary.Tract<S>>,
    contains: (S, Boundary.Point) -> bool, c: Cache, cfg: Config, svc: Geocoder.Services): (r: Batch)
    requires |clock| == |records| && AllDistinct(records) && DistinctKeys(m)
    ensures r.result.Failure? ==> r.cache == c
    ensures r.result.Success? <==>
      forall i | 0 <= i < |records| :: StepAt(records, clock, c, RecordProcess(m, tracts, contains, cfg, svc), i).result.Success?
    ensures r.result.Failure? <==> exists i: nat :: FailsAt(records, clock, c, RecordProcess(m, tracts, contains, cfg, svc), i)
    ensures forall i: nat | FailsAt(records, clock, c, RecordProcess(m, tracts, contains, cfg, svc), i) ::
      && r.result.error == StepAt(records, clock, c, RecordProcess(m, tracts, contains, cfg, svc), i).result.error
      && |r.calls| == i + 1
    ensures r.result.Success? ==> |r.result.value| == |records|
    ensures r.result.Success? ==> forall i | 0 <= i < |records| ::
      Deidentified(r.result.value[i], records[i], m, cfg.keepZipcode)
    ensures |records| == 0 ==> r == Batch(Success([]), c, [])
  {
    var process := RecordProcess(m, tracts, contains, cfg, svc);
    RecordProcessAccepts(records, m, tracts, contains, cfg, svc);
    var run := Run(records, clock, c, process);
    RunFailsAtFirst(records, clock, c, process);
    RunSucceedsIffEveryStep(records, clock, c, process);
    assert run.result.Success? ==> forall i | 0 <= i < |records| ::
      Deidentified(run.result.value[i], records[i], m, cfg.keepZipcode) by {
      if run.result.Success? {
        forall i | 0 <= i < |records| ensures Deidentified(run.result.value[i], records[i], m, cfg.keepZipcode) {
          RunElement(records, clock, c, process, i);
        }
      }
    }
    if run.result.Success? then run else Batch(run.result, c, run.calls)
  }

  lemma ProcessJsonIsRun<S>(
    records: seq<Record>, clock: seq<int>, m: Address.AddressMap, tracts: seq<Boundary.Tract<S>>,
    contains: (S, Boundary.Point) -> bool, c: Cache, cfg: Config, svc: Geocoder.Services)
    requires |clock| == |records| && AllDistinct(records) && DistinctKeys(m)
    ensures Accepts(RecordProcess(m, tracts, contains, cfg, svc), records)
    ensures ProcessJson(records, clock, m, tracts, contains, c, cfg, svc).result.Success? ==>
      ProcessJson(records, clock, m, tracts, contains, c, cfg, svc) == Run(records, clock, c, RecordProcess(m, tracts, contains, cfg, svc))
  {
    RecordProcessAccepts(records, m, tracts, contains, cfg, svc);
  }

  /**
   * A successful batch is the records processed in turn: the `i`-th output
   * and calls are those of the `i`-th record against the cache its
   * predecessors left, and the cache `save_cache` persists is the one the
   * last record left.
   */
  lemma ProcessJsonSteps<S>(
    records: seq<Record>, clock: seq<int>, m: Address.AddressMap, tracts: seq<Boundary.Tract<S>>,
    contains: (S, Boundary.Point) -> bool, c: Cache, cfg: Config, svc: Geocoder.Services, i: nat)
    requires |clock| == |records| && AllDistinct(records) && DistinctKeys(m) && i < |records|
    ensures Accepts(RecordProcess(m, tracts, contains, cfg, svc), records)
    ensures var r := ProcessJson(records, clock, m, tracts, contains, c, cfg, svc);
      var step := StepAt(records, clock, c, RecordProcess(m, tracts, contains, cfg, svc), i);
      r.result.Success? ==>
      && |r.calls| == |records|
      && step.result == Success(r.result.value[i])
      && step.calls == r.calls[i]
      && (i == |records| - 1 ==> r.cache == step.cache)
  {
    var process := RecordProcess(m, tracts, contains, cfg, svc);
    RecordProcessAccepts(records, m, tracts, contains, cfg, svc);
    var r := ProcessJson(records, clock, m, tracts, contains, c, cfg, svc);
    ProcessJsonIsRun(records, clock, m, tracts, contains, c, cfg, svc);
    if r.result.Success? {
      RunElement(records, clock, c, process, i);
      if i == |records| - 1 {
        assert records[..i + 1] == records && clock[..i + 1] == clock;
      }
    }
  }

  lemma ProcessRepeatWithinTtl<S>(
    record: Record, m: Address.AddressMap, tracts: seq<Boundary.Tract<S>>,
    contains: (S, Boundary.Point) -> bool, c: Cache, now: int, later: int, cfg: Config, svc: Geocoder.Services)
    requires DistinctKeys(record) && DistinctKeys(m) && !cfg.invalidateCache
    requires now <= later < now + c.ttl
    ensures var process := RecordProcess(m, tracts, contains, cfg, svc);
      process(record, process(record, c, now).cache, later).calls == []
  {
    RepeatWithinTtl(record, m, tracts, contains, c, now, later, cfg, svc);
  }

  /**
   * Processing one record at `now` keeps a response that is live at `t`
   * under any key live at `t`, when `t` falls in the record's own window:
   * the record either leaves the cache alone, writes another key, or
   * rewrites the same key with a fresh dict.
   */
  lemma StepKeepsLive<S>(
    record: Record, m: Address.AddressMap, tracts: seq<Boundary.Tract<S>>,
    contains: (S, Boundary.Point) -> bool, c: Cache, now: int, cfg: Config, svc: Geocoder.Services,
    key: string, t: int)
    requires DistinctKeys(record) && DistinctKeys(m)
    requires now <= t < now + c.ttl
    ensures CheckCache(c, key, t).IsDict() ==>
      CheckCache(ProcessJsonRecord(record, m, tracts, contains, c, now, cfg, svc).cache, key, t).IsDict()
  {
    var r := ProcessJsonRecord(record, m, tracts, contains, c, now, cfg, svc);
    if r.response.IsDict() {
      var written := JsonKey.SortedKey(StdAddressOf(record, m).value);
      if key == written {
        assert ResultCache.Read(r.cache, key, t) == Some(r.response);
      } else {
        assert ResultCache.Read(r.cache, key, t) == ResultCache.Read(c, key, t);
      }
    }
  }

  /**
   * A response live at `t` after the `i`-th record stays live while the
   * records after it are processed, as long as `t` falls in each one's window.
   */
  lemma {:induction false} LiveThroughRun<S>(
    records: seq<Record>, clock: seq<int>, m: Address.AddressMap, tracts: seq<Boundary.Tract<S>>,
    contains: (S, Boundary.Point) -> bool, c: Cache, cfg: Config, svc: Geocoder.Services,
    i: nat, k: nat, key: string, t: int)
    requires |clock| == |records| && AllDistinct(records) && DistinctKeys(m)
    requires i < k <= |records|
    requires forall a | i < a < k :: clock[a] <= t < clock[a] + c.ttl
    ensures Accepts(RecordProcess(m, tracts, contains, cfg, svc), records)
    ensures Accepts(RecordProcess(m, tracts, contains, cfg, svc), records[..i + 1])
    ensures Accepts(RecordProcess(m, tracts, contains, cfg, svc), records[..k])
    ensures var process := RecordProcess(m, tracts, contains, cfg, svc);
      Run(records, clock, c, process).result.Success? &&
      CheckCache(Run(records[..i + 1], clock[..i + 1], c, process).cache, key, t).IsDict() ==>
      CheckCache(Run(records[..k], clock[..k], c, process).cache, key, t).IsDict()
    decreases k
  {
    var process := RecordProcess(m, tracts, contains, cfg, svc);
    RecordProcessAccepts(records, m, tracts, contains, cfg, svc);
    AcceptsPrefix(process, records, i + 1);
    AcceptsPrefix(process, records, k);
    if k > i + 1 {
      LiveThroughRun(records, clock, m, tracts, contains, c, cfg, svc, i, k - 1, key, t);
      LiveStep(records, clock, m, tracts, contains, c, cfg, svc, k - 1, key, t);
    }
  }

  /** The `n`-th record of a successful run keeps a response live at `t` when `t` falls in its window. */
  lemma LiveStep<S>(
    records: seq<Record>, clock: seq<int>, m: Address.AddressMap, tracts: seq<Boundary.Tract<S>>,
    contains: (S, Boundary.Point) -> bool, c: Cache, cfg: Config, svc: Geocoder.Services,
    n: nat, key: string, t: int)
    requires |clock| == |records| && AllDistinct(records) && DistinctKeys(m)
    requires n < |records|
    requires clock[n] <= t < clock[n] + c.ttl
    ensures Accepts(RecordProcess(m, tracts, contains, cfg, svc), records)
    ensures Accepts(RecordProcess(m, tracts, contains, cfg, svc), records[..n])
    ensures Accepts(RecordProcess(m, tracts, contains, cfg, svc), records[..n + 1])
    ensures var process := RecordProcess(m, tracts, contains, cfg, svc);
      Run(records, clock, c, process).result.Success? &&
      CheckCache(Run(records[..n], clock[..n], c, process).cache, key, t).IsDict() ==>
      CheckCache(Run(records[..n + 1], clock[..n + 1], c, process).cache, key, t).IsDict()
  {
    var process := RecordProcess(m, tracts, contains, cfg, svc);
    RecordProcessAccepts(records, m, tracts, contains, cfg, svc);
    AcceptsPrefix(process, records, n);
    AcceptsPrefix(process, records, n + 1);
    if Run(records, clock, c, process).result.Success? {
      RunElement(records, clock, c, process, n);
      assert AllDistinct(records[..n]) by {
        forall a | 0 <= a < n ensures DistinctKeys(records[..n][a]) {
          assert records[..n][a] == records[a];
        }
      }
      RunKeepsTtl(records[..n], clock[..n], m, tracts, contains, c, cfg, svc);
      var before := Run(records[..n], clock[..n], c, process);
      StepKeepsLive(records[n], m, tracts, contains, before.cache, clock[n], cfg, svc, key, t);
    }
  }

  /**
   * A record whose address standardizes like an earlier one's, processed
   * within the time-to-live of that earlier record and without
   * `invalidate_cache`, is answered from the cache: it makes no call. The
   * records between them may be anything; the clock never runs backwards.
   */
  lemma DuplicateWithinTtlGeocodedOnce<S>(
    records: seq<Record>, clock: seq<int>, m: Address.AddressMap, tracts: seq<Boundary.Tract<S>>,
    contains: (S, Boundary.Point) -> bool, c: Cache, cfg: Config, svc: Geocoder.Services, i: nat, j: nat)
    requires |clock| == |records| && AllDistinct(records) && DistinctKeys(m)
    requires !cfg.invalidateCache
    requires i < j < |records|
    requires forall a, b | 0 <= a <= b < |clock| :: clock[a] <= clock[b]
    requires clock[j] < clock[i] + c.ttl
    ensures StdAddressOf(records[j], m) == StdAddressOf(records[i], m) &&
            ProcessJson(records, clock, m, tracts, contains, c, cfg, svc).result.Success? ==>
      ProcessJson(records, clock, m, tracts, contains, c, cfg, svc).calls[j] == []
  {
    if StdAddressOf(records[j], m) != StdAddressOf(records[i], m) ||
       !ProcessJson(records, clock, m, tracts, contains, c, cfg, svc).result.Success? {
      return;
    }
    var process := RecordProcess(m, tracts, contains, cfg, svc);
    RecordProcessAccepts(records, m, tracts, contains, cfg, svc);
    assert ProcessJson(records, clock, m, tracts, contains, c, cfg, svc) == Run(records, clock, c, process);
    RunElement(records, clock, c, process, i);
    assert AllDistinct(records[..i]) by {
      forall a | 0 <= a < i ensures DistinctKeys(records[..i][a]) {
        assert records[..i][a] == records[a];
      }
    }
    RunKeepsTtl(records[..i], clock[..i], m, tracts, contains, c, cfg, svc);
    var key := JsonKey.SortedKey(StdAddressOf(records[i], m).value);
    var t := clock[j];
    assert CheckCache(Run(records[..i + 1], clock[..i + 1], c, process).cache, key, t).IsDict();
    LiveThroughRun(records, clock, m, tracts, contains, c, cfg, svc, i, j, key, t);
    RunElement(records, clock, c, process, j);
    var before := Run(records[..j], clock[..j], c, process);
    CacheHitMakesNoCalls(records[j], m, tracts, contains, before.cache, t, cfg, svc);
  }

  /** In a successful run, the `i`-th record leaves a dict under its key, live for its time-to-live. */
  lemma RecordWritesKey<S>(
    records: seq<Record>, clock: seq<int>, m: Address.AddressMap, tracts: seq<Boundary.Tract<S>>,
    contains: (S, Boundary.Point) -> bool, c: Cache, cfg: Config, svc: Geocoder.Services, i: nat, t: int)
    requires |clock| == |records| && AllDistinct(records) && DistinctKeys(m)
    requires i < |records|
    requires clock[i] <= t < clock[i] + c.ttl
    ensures Accepts(RecordProcess(m, tracts, contains, cfg, svc), records)
    ensures Accepts(RecordProcess(m, tracts, contains, cfg, svc), records[..i + 1])
    ensures var process := RecordProcess(m, tracts, contains, cfg, svc);
      Run(records, clock, c, process).result.Success? && StdAddressOf(records[i], m).Success? ==>
      CheckCache(Run(records[..i + 1], clock[..i + 1], c, process).cache,
                 JsonKey.SortedKey(StdAddressOf(records[i], m).value), t).IsDict()
  {
    var process := RecordProcess(m, tracts, contains, cfg, svc);
    RecordProcessAccepts(records, m, tracts, contains, cfg, svc);
    AcceptsPrefix(process, records, i + 1);
    if Run(records, clock, c, process).result.Success? && StdAddressOf(records[i], m).Success? {
      RunElement(records, clock, c, process, i);
      assert AllDistinct(records[..i]) by {
        forall a | 0 <= a < i ensures DistinctKeys(records[..i][a]) {
          assert records[..i][a] == records[a];
        }
      }
      RunKeepsTtl(records[..i], clock[..i], m, tracts, contains, c, cfg, svc);
    }
  }

  /**
   * After a successful run, the cache holds a dict under each record's key,
   * at any time from the last record's clock reading to the end of that
   * record's time-to-live.
   */
  lemma RunCacheServesRecord<S>(
    records: seq<Record>, clock: seq<int>, m: Address.AddressMap, tracts: seq<Boundary.Tract<S>>,
    contains: (S, Boundary.Point) -> bool, c: Cache, cfg: Config, svc: Geocoder.Services, i: nat, t: int)
    requires |clock| == |records| && AllDistinct(records) && DistinctKeys(m)
    requires i < |records|
    requires forall a, b | 0 <= a <= b < |clock| :: clock[a] <= clock[b]
    requires clock[|records| - 1] <= t < clock[i] + c.ttl
    ensures Accepts(RecordProcess(m, tracts, contains, cfg, svc), records)
    ensures var run := Run(records, clock, c, RecordProcess(m, tracts, contains, cfg, svc));
      run.result.Success? && StdAddressOf(records[i], m).Success? ==>
      CheckCache(run.cache, JsonKey.SortedKey(StdAddressOf(records[i], m).value), t).IsDict()
  {
    var process := RecordProcess(m, tracts, contains, cfg, svc);
    RecordProcessAccepts(records, m, tracts, contains, cfg, svc);
    var n := |records|;
    if !Run(records, clock, c, process).result.Success? || StdAddressOf(records[i], m).Failure? {
      return;
    }
    var key := JsonKey.SortedKey(StdAddressOf(records[i], m).value);
    assert clock[i] <= t by { assert clock[i] <= clock[n - 1]; }
    RecordWritesKey(records, clock, m, tracts, contains, c, cfg, svc, i, t);
    assert records[..n] == records && clock[..n] == clock;
    if i + 1 < n {
      forall a | i < a < n ensures clock[a] <= t < clock[a] + c.ttl {
        assert clock[i] <= clock[a] <= clock[n - 1];
      }
      LiveThroughRun(records, clock, m, tracts, contains, c, cfg, svc, i, n, key, t);
    }
  }

  /**
   * The cache that `save_cache` persists after a successful batch serves
   * every record's address until that record's time-to-live runs out: read
   * at any time after the last record, it holds a dict under the record's
   * key, so processing the record again in a later run, without
   * `invalidate_cache`, makes no call.
   */
  lemma SavedCacheServesRecords<S>(
    records: seq<Record>, clock: seq<int>, m: Address.AddressMap, tracts: seq<Boundary.Tract<S>>,
    contains: (S, Boundary.Point) -> bool, c: Cache, cfg: Config, svc: Geocoder.Services, i: nat, t: int)
    requires |clock| == |records| && AllDistinct(records) && DistinctKeys(m)
    requires i < |records|
    requires forall a, b | 0 <= a <= b < |clock| :: clock[a] <= clock[b]
    requires clock[|records| - 1] <= t < clock[i] + c.ttl
    ensures var r := ProcessJson(records, clock, m, tracts, contains, c, cfg, svc);
      r.result.Success? && StdAddressOf(records[i], m).Success? ==>
      && CheckCache(r.cache, JsonKey.SortedKey(StdAddressOf(records[i], m).value), t).IsDict()
      && (!cfg.invalidateCache ==> ProcessJsonRecord(records[i], m, tracts, contains, r.cache, t, cfg, svc).calls == [])
  {
    var r := ProcessJson(records, clock, m, tracts, contains, c, cfg, svc);
    RunCacheServesRecord(records, clock, m, tracts, contains, c, cfg, svc, i, t);
    if r.result.Success? && StdAddressOf(records[i], m).Success? && !cfg.invalidateCache {
      CacheHitMakesNoCalls(records[i], m, tracts, contains, r.cache, t, cfg, svc);
    }
  }
}

=== FILE: records.dfy ===
/** Records read from line-delimited JSON: string keys mapped to JSON scalar values. */
module Records {
  import opened Dicts

  /** A JSON scalar as `json.loads` produces it (floating point numbers are not modelled). */
  datatype Value = JNull | JBool(b: bool) | JNum(n: int) | JStr(s: string)

  type Record = Dict<string, Value>

  function DigitChar(d: nat): (c: char)
    requires d < 10
    ensures '0' <= c <= '9'
    ensures c as int - '0' as int == d
  {
    ('0' as int + d) as char
  }

  /** The number a decimal digit string denotes, read most significant digit first. */
  function DigitsValue(s: string): nat
    requires forall i | 0 <= i < |s| :: '0' <= s[i] <= '9'
  {
    if |s| == 0 then 0
    else DigitsValue(s[..|s| - 1]) * 10 + (s[|s| - 1] as int - '0' as int)
  }

  /**
   * Decimal digits of a natural number, as Python's `str` writes them: they
   * read back as `n`, and only zero itself starts with the digit 0.
   */
  function NatToString(n: nat): (s: string)
    ensures |s| > 0
    ensures forall i | 0 <= i < |s| :: '0' <= s[i] <= '9'
    ensures DigitsValue(s) == n
    ensures s[0] == '0' <==> n == 0
  {
    if n < 10 then [DigitChar(n)]
    else
      var prefix := NatToString(n / 10);
      var s := prefix + [DigitChar(n % 10)];
      assert s[..|s| - 1] == prefix;
      s
  }

  /** Python's `str(v)` on a decoded JSON scalar. */
  function Str(v: Value): string {
    match v
    case JNull => "None"
    case JBool(b) => if b then "True" else "False"
    case JNum(n) => if n < 0 then "-" + NatToString(-n) else NatToString(n)
    case JStr(s) => s
  }
}

=== FILE: result_cache.dfy ===
/**
 * The geocoding cache: a time-to-live cache from key text to stored value.
 * Expiry is lazy and measured against an explicit clock `now`: an entry written
 * at time t with time-to-live ttl is served while `now < t + ttl`, as in
 * `cachetools.TTLCache`.
 */
module ResultCache {
  import opened Wrappers

  /** Time-to-live of the newer revision: four weeks, in seconds. */
  const CACHE_TTL: nat := 60 * 60 * 24 * 28

  /** Time-to-live of the older revision, in seconds. */
  const LEGACY_CACHE_TTL: nat := 6000

  datatype Entry<V> = Entry(value: V, expires: int)

  datatype Cache<V> = Cache(ttl: nat, entries: map<string, Entry<V>>)

  /** A fresh, empty cache. */
  function Create<V>(ttl: nat): (c: Cache<V>)
    ensures c.ttl == ttl
    ensures forall key, now :: Read(c, key, now).None?
  {
    Cache(ttl, map[])
  }

  /**
   * `cache[key]` guarded by `if cache:`: an empty cache and a missing or
   * expired key all read as absent.
   */
  function Read<V>(c: Cache<V>, key: string, now: int): (r: Option<V>)
    ensures r.Some? <==> key in c.entries && now < c.entries[key].expires
    ensures r.Some? ==> r.value == c.entries[key].value
  {
    if |c.entries| == 0 then None
    else if key in c.entries && now < c.entries[key].expires then Some(c.entries[key].value)
    else None
  }

  /** `cache[key] = value`: always overwrites, restarting the entry's time-to-live. */
  function Write<V>(c: Cache<V>, key: string, value: V, now: int): (r: Cache<V>)
    ensures r.ttl == c.ttl
    ensures forall later | now <= later < now + c.ttl :: Read(r, key, later) == Some(value)
    ensures forall later | later >= now + c.ttl :: Read(r, key, later).None?
    ensures forall other, later | other != key :: Read(r, other, later) == Read(c, other, later)
  {
    Cache(c.ttl, c.entries[key := Entry(value, now + c.ttl)])
  }

  /** A later write to the same key replaces the earlier one. */
  lemma WriteOverwrites<V>(c: Cache<V>, key: string, v1: V, v2: V, t1: int, t2: int)
    ensures Write(Write(c, key, v1, t1), key, v2, t2) == Write(c, key, v2, t2)
  {
  }
}

=== FILE: scenarios.dfy ===
/**
 * The institutional address maps of `config.py`, used as example constants,
 * and what the pipeline does with each of them.
 */
module Scenarios {
  import opened Wrappers
  import opened Dicts
  import opened Errors
  import opened Records
  import Text
  import ResultCache
  import Geocoder
  import Boundary
  import Address
  import Pipeline
  import JsonKey

  /** `ADDRESS_CONFIG['default']`: only the street role is set. */
  const DefaultMap: Address.AddressMap := [
    ("street", Some("address")), ("street2", None), ("secondary", None),
    ("city", None), ("state", None), ("zipcode", None)]

  /** `ADDRESS_CONFIG['sch']`: names a `street3` role where the lookup expects `secondary`. */
  const SchMap: Address.AddressMap := [
    ("street", Some("ADD_LINE_1")), ("street2", Some("ADD_LINE_2")), ("street3", Some("ADD-LINE_3")),
    ("city", Some("CITY")), ("state", Some("ABBR")), ("zipcode", Some("ZIP"))]

  /** `ADDRESS_CONFIG['kp']`: no roles at all. */
  const KpMap: Address.AddressMap := []

  /** The `kp` map names no address field, so every record fails before any lookup. */
  lemma KpMapFindsNoAddress<S>(
    record: Record, tracts: seq<Boundary.Tract<S>>, contains: (S, Boundary.Point) -> bool,
    c: Pipeline.Cache, now: int, cfg: Pipeline.Config, svc: Geocoder.Services)
    requires DistinctKeys(record)
    ensures var r := Pipeline.ProcessJsonRecord(record, KpMap, tracts, contains, c, now, cfg, svc);
      r.result == Failure(NoAddressDataFoundError) && r.calls == [] && r.cache == c
  {
    assert Address.AddressKeys(KpMap) == [];
  }

  lemma DefaultMapDistinct()
    ensures DistinctKeys(DefaultMap)
  {
    assert Keys(DefaultMap) == ["street", "street2", "secondary", "city", "state", "zipcode"];
  }

  /**
   * Under the default map the free-text `address` field is the only field
   * removed from the output, whether or not `keep_zipcode` is set: the
   * zipcode role is unset, so keeping it spares nothing.
   */
  lemma DefaultMapDropsOnlyAddress(keepZipcode: bool, k: string)
    ensures Pipeline.Dropped(DefaultMap, keepZipcode, k) <==> k == "address"
  {
    assert Values(DefaultMap) == [Some("address"), None, None, None, None, None];
    assert Keys(DefaultMap)[5] == "zipcode";
    assert Get(DefaultMap, "zipcode") == Some(None);
  }

  lemma DefaultAddressKeys()
    ensures Address.AddressKeys(DefaultMap) == ["address"]
  {
    var m := DefaultMap;
    assert Address.AddressKeys(m[5..]) == [];
    assert m[4..][1..] == m[5..];
    assert m[3..][1..] == m[4..];
    assert m[2..][1..] == m[3..];
    assert m[1..][1..] == m[2..];
    assert m[1..] == m[1..][0..];
  }

  lemma DefaultMapUnset()
    ensures DefaultMap[0] == ("street", Some("address"))
    ensures forall i | 1 <= i < |DefaultMap| :: DefaultMap[i].1 == None && DefaultMap[i].0 != ""
  {
  }

  /**
   * Under the default map a record with an `address` field standardizes to
   * its normalized text as the street, every other role unset.
   */
  lemma DefaultMapStandardizes(record: Record)
    requires DistinctKeys(record) && "address" in Keys(record)
    ensures DistinctKeys(DefaultMap)
    ensures var std := Pipeline.StdAddressOf(record, DefaultMap);
      && std.Success?
      && Get(std.value, "street") == Some(Some(Text.Normalize(Str(Get(record, "address").value))))
      && forall i | 1 <= i < |DefaultMap| :: Get(std.value, DefaultMap[i].0) == Some(None)
  {
    DefaultMapDistinct();
    DefaultAddressOf(record);
    var address := Address.AddressDataJsonRecord(record, DefaultMap);
    var std := Pipeline.StdAddressOf(record, DefaultMap);
    assert std.Success?;
    var m := DefaultMap;
    assert Get(std.value, m[0].0) == Some(Address.RoleValue(address.value, m[0].1));
    DefaultMapUnset();
  }

  /** Under the default map the extracted address holds the record's `address` field. */
  lemma DefaultAddressOf(record: Record)
    requires DistinctKeys(record) && "address" in Keys(record)
    ensures var address := Address.AddressDataJsonRecord(record, DefaultMap);
      address.Success? && Get(address.value, "address") == Get(record, "address")
  {
    DefaultAddressKeys();
    var v := Get(record, "address").value;
    var address := Address.AddressDataJsonRecord(record, DefaultMap);
    assert address.Success?;
    assert ("address", v) in address.value;
    var j :| 0 <= j < |address.value| && address.value[j] == ("address", v);
    assert Keys(address.value)[j] == "address";
  }

  /**
   * The `sch` map names no `secondary` role, so every record without a live
   * cached response, in an empty or a loaded cache, or with
   * `invalidate_cache`, fails: building the street lookup raises for the
   * missing role.
   */
  lemma SchMapNeverGeocodes<S>(
    record: Record, tracts: seq<Boundary.Tract<S>>, contains: (S, Boundary.Point) -> bool,
    c: Pipeline.Cache, now: int, cfg: Pipeline.Config, svc: Geocoder.Services)
    requires DistinctKeys(record)
    ensures DistinctKeys(SchMap)
    ensures cfg.invalidateCache || Pipeline.StdAddressOf(record, SchMap).Failure? ||
            !Pipeline.CheckCache(c, JsonKey.SortedKey(Pipeline.StdAddressOf(record, SchMap).value), now).IsDict() ==>
      var r := Pipeline.ProcessJsonRecord(record, SchMap, tracts, contains, c, now, cfg, svc);
      && r.result.Failure?
      && r.calls == []
      && (Pipeline.StdAddressOf(record, SchMap).Success? ==>
            r.result.error == InvalidAddressMappingError("secondary"))
  {
    assert Keys(SchMap) == ["street", "street2", "street3", "city", "state", "zipcode"];
    var std := Pipeline.StdAddressOf(record, SchMap);
    if std.Success? {
      SchLookupFails(std.value);
    }
  }

  lemma SchLookupFails(a: Geocoder.StdAddress)
    requires forall role :: role in Keys(a) <==> role != "" && role in Keys(SchMap)
    ensures Geocoder.UsStreetLookup(a) == Failure(InvalidAddressMappingError("secondary"))
  {
    assert Keys(SchMap) == ["street", "street2", "street3", "city", "state", "zipcode"];
    assert "secondary" !in Keys(a);
    assert "street" in Keys(a) && "street2" in Keys(a);
    assert Geocoder.Roles[2] == "secondary";
    var r := Geocoder.FirstMissing(a, Geocoder.Roles);
    assert r.Some?;
    var i :| 0 <= i < |Geocoder.Roles| && Geocoder.Roles[i] == r.value && r.value !in Keys(a) &&
      forall j | 0 <= j < i :: Geocoder.Roles[j] in Keys(a);
    assert i == 2;
  }
}

=== FILE: text.dfy ===
/**
 * The string operations the pipeline applies to field values: Python's
 * `str.upper`, `str.strip` and `str.join`, restricted to the ASCII range.
 */
module Text {

  /** Characters `str.strip()` removes in the ASCII range: tab to carriage return, the four separators, space. */
  predicate IsSpace(c: char) {
    9 <= c as int <= 13 || 28 <= c as int <= 32
  }

  predicate IsLower(c: char) {
    'a' <= c <= 'z'
  }

  predicate IsUpperLetter(c: char) {
    'A' <= c <= 'Z'
  }

  function UpperChar(c: char): (u: char)
    ensures !IsLower(u)
    ensures IsLower(c) ==> u as int == c as int - 32
    ensures !IsLower(c) ==> u == c
  {
    if IsLower(c) then (c as int - 32) as char else c
  }

  /** `s.upper()` */
  function Upper(s: string): (r: string)
    ensures |r| == |s|
    ensures forall i | 0 <= i < |s| :: r[i] == UpperChar(s[i])
  {
    seq(|s|, i requires 0 <= i < |s| => UpperChar(s[i]))
  }

  predicate NoLower(s: string) {
    forall i | 0 <= i < |s| :: !IsLower(s[i])
  }

  /** Where `s.strip()` starts: the first position from `i` on that is not a space. */
  function StripStart(s: string, i: nat): (j: nat)
    requires i <= |s|
    ensures i <= j <= |s|
    ensures forall k | i <= k < j :: IsSpace(s[k])
    ensures j == |s| || !IsSpace(s[j])
    decreases |s| - i
  {
    if i < |s| && IsSpace(s[i]) then StripStart(s, i + 1) else i
  }

  /** Where `s.strip()` ends: the position after the last character before `j` and from `i` on that is not a space. */
  function StripEnd(s: string, i: nat, j: nat): (e: nat)
    requires i <= j <= |s|
    ensures i <= e <= j
    ensures forall k | e <= k < j :: IsSpace(s[k])
    ensures e == i || !IsSpace(s[e - 1])
  {
    if i < j && IsSpace(s[j - 1]) then StripEnd(s, i, j - 1) else j
  }

  /** `s.strip()`: the middle of `s` left between its leading and trailing spaces. */
  function Strip(s: string): (r: string)
    ensures |r| <= |s|
    ensures var i := StripStart(s, 0); var j := StripEnd(s, i, |s|);
      && r == s[i..j]
      && (forall k | 0 <= k < i :: IsSpace(s[k]))
      && (forall k | j <= k < |s| :: IsSpace(s[k]))
    ensures r == [] || (!IsSpace(r[0]) && !IsSpace(r[|r| - 1]))
  {
    var i := StripStart(s, 0);
    var j := StripEnd(s, i, |s|);
    s[i..j]
  }

  /** The normalization every address and PII value receives: `str(v).upper().strip()`. */
  function Normalize(s: string): (r: string)
    ensures NoLower(r)
    ensures r == [] || (!IsSpace(r[0]) && !IsSpace(r[|r| - 1]))
  {
    Strip(Upper(s))
  }

  /** A value with no lower-case letter and no space at either end is its own normalization. */
  lemma NormalizeFixes(s: string)
    requires NoLower(s) && (s == [] || (!IsSpace(s[0]) && !IsSpace(s[|s| - 1])))
    ensures Normalize(s) == s
  {
    assert Upper(s) == s;
    assert s[0..|s|] == s;
  }

  /** Normalizing an already normalized value changes nothing. */
  lemma NormalizeIdempotent(s: string)
    ensures Normalize(Normalize(s)) == Normalize(s)
  {
    NormalizeFixes(Normalize(s));
  }

  /** `x` and `y` are the same character, or the lower- and upper-case forms of one ASCII letter. */
  predicate SameLetterIgnoringCase(x: char, y: char) {
    || x == y
    || (IsLower(x) && y as int == x as int - 32)
    || (IsLower(y) && x as int == y as int - 32)
  }

  /** Values that differ only in ASCII letter case, character by character, normalize identically. */
  lemma NormalizeIgnoresCase(a: string, b: string)
    requires |a| == |b|
    requires forall i | 0 <= i < |a| :: SameLetterIgnoringCase(a[i], b[i])
    ensures Normalize(a) == Normalize(b)
  {
    assert Upper(a) == Upper(b);
  }

  predicate AllSpace(s: string) {
    forall k | 0 <= k < |s| :: IsSpace(s[k])
  }

  /** `strip()` returns the one middle part that neither starts nor ends with a space. */
  lemma StripUnique(a: string, r: string, b: string)
    requires AllSpace(a) && AllSpace(b)
    requires r == [] || (!IsSpace(r[0]) && !IsSpace(r[|r| - 1]))
    ensures Strip(a + r + b) == r
  {
    var x := a + r + b;
    assert forall k | 0 <= k < |a| :: x[k] == a[k];
    assert forall k | 0 <= k < |b| :: x[|a| + |r| + k] == b[k];
    var i := StripStart(x, 0);
    if r == [] {
      assert forall k | 0 <= k < |x| :: IsSpace(x[k]) by {
        forall k | 0 <= k < |x| ensures IsSpace(x[k]) {
          if k >= |a| { assert x[k] == b[k - |a|]; }
        }
      }
      assert i == |x|;
    } else {
      assert x[|a|] == r[0];
      assert i == |a|;
      assert x[|a| + |r| - 1] == r[|r| - 1];
      assert StripEnd(x, i, |x|) == |a| + |r|;
      assert x[i..|a| + |r|] == r;
    }
  }

  lemma AllSpaceAppend(a: string, b: string)
    requires AllSpace(a) && AllSpace(b)
    ensures AllSpace(a + b)
  {
    assert forall k | |a| <= k < |a + b| :: (a + b)[k] == b[k - |a|];
  }

  /** A value is its leading spaces, its stripped middle and its trailing spaces. */
  lemma StripSplits(u: string) returns (a: string, b: string)
    ensures AllSpace(a) && AllSpace(b)
    ensures u == a + Strip(u) + b
  {
    var i := StripStart(u, 0);
    var j := StripEnd(u, i, |u|);
    a, b := u[..i], u[j..];
    assert u == u[..i] + u[i..j] + u[j..];
  }

  lemma Regroup(p: string, a: string, r: string, b: string, q: string)
    ensures p + (a + r + b) + q == (p + a) + r + (b + q)
  {
  }

  /** Spaces around a value do not change what `strip()` returns. */
  lemma StripIgnoresSurroundingSpace(p: string, u: string, q: string)
    requires AllSpace(p) && AllSpace(q)
    ensures Strip(p + u + q) == Strip(u)
  {
    var a, b := StripSplits(u);
    AllSpaceAppend(p, a);
    AllSpaceAppend(b, q);
    Regroup(p, a, Strip(u), b, q);
    StripUnique(p + a, Strip(u), b + q);
  }

  /** Upper-casing leaves spaces alone. */
  lemma UpperOfSpace(p: string)
    requires AllSpace(p)
    ensures Upper(p) == p
  {
  }

  /** Upper-casing works character by character. */
  lemma UpperAppend(a: string, b: string)
    ensures Upper(a + b) == Upper(a) + Upper(b)
  {
  }

  /** Spaces around a value do not change its normalization. */
  lemma NormalizeIgnoresSurroundingSpace(p: string, s: string, q: string)
    requires AllSpace(p) && AllSpace(q)
    ensures Normalize(p + s + q) == Normalize(s)
  {
    UpperAppend(p + s, q);
    UpperAppend(p, s);
    UpperOfSpace(p);
    UpperOfSpace(q);
    StripIgnoresSurroundingSpace(p, Upper(s), q);
  }

  /** A value padded with spaces and differing only in letter case normalizes like the bare value. */
  lemma NormalizeIgnoresCaseAndSpace(p: string, a: string, q: string, b: string)
    requires AllSpace(p) && AllSpace(q)
    requires |a| == |b|
    requires forall i | 0 <= i < |a| :: SameLetterIgnoringCase(a[i], b[i])
    ensures Normalize(p + a + q) == Normalize(b)
  {
    NormalizeIgnoresSurroundingSpace(p, a, q);
    NormalizeIgnoresCase(a, b);
  }

  /** `sep.join(parts)` */
  function Join(sep: string, parts: seq<string>): (r: string)
    ensures |parts| == 1 ==> r == parts[0]
    ensures |parts| == 0 ==> r == ""
  {
    if |parts| == 0 then ""
    else if |parts| == 1 then parts[0]
    else parts[0] + sep + Join(sep, parts[1..])
  }

  /** With a non-empty separator, a joined text is empty only for no parts or a single empty one. */
  lemma {:induction false} JoinEmptyIff(sep: string, parts: seq<string>)
    requires |sep| > 0
    ensures Join(sep, parts) == "" <==> |parts| == 0 || (|parts| == 1 && parts[0] == "")
  {
  }

  /**
   * Every part occurs in the joined text at its place in the order: after the
   * parts before it and a separator, and before a separator and the parts after it.
   */
  lemma {:induction false} JoinContainsParts(sep: string, parts: seq<string>, i: nat)
    requires i < |parts|
    ensures Join(sep, parts)
      == Join(sep, parts[..i]) + (if i > 0 then sep else "") + parts[i]
         + (if i + 1 < |parts| then sep + Join(sep, parts[i + 1..]) else "")
  {
    if i > 0 {
      var rest := parts[1..];
      JoinContainsParts(sep, rest, i - 1);
      assert rest[i - 1] == parts[i] && rest[i..] == parts[i + 1..];
      assert Join(sep, parts) == parts[0] + sep + Join(sep, rest);
      if i > 1 {
        assert parts[..i][1..] == rest[..i - 1];
        assert Join(sep, parts[..i]) == parts[0] + sep + Join(sep, rest[..i - 1]);
      }
    }
  }
}

=== FILE: wrappers.dfy ===
/** Failure-compatible Option and Result types shared by every module. */
module Wrappers {

  /** A value that may be absent: Python's `None` versus a present value. */
  datatype Option<+T> = None | Some(value: T)

  /** The outcome of an operation that may raise: a value or the exception raised. */
  datatype Result<+T, +E> = Success(value: T) | Failure(error: E) {

    predicate IsFailure() {
      Failure?
    }

    function PropagateFailure<U>(): Result<U, E>
      requires Failure?
    {
      Failure(error)
    }

    function Extract(): T
      requires Success?
    {
      value
    }
  }
}
